=== FILE: README.md ===
# Event-class code generator, modelled in Dafny

A model of `EventsCodeGenerator` in `schemas/generate_event_objects.py`, the
generator that turns an in-memory model of OPC UA event types into the Python
module `event_objects.py`. For each event it writes a class that derives from
its parent event. The class's constructor adds one property per `HasProperty`
reference. The module ends with the `IMPLEMENTED_EVENTS` registry.

The model has seven modules:

- `Outcomes` (`outcomes.dfy`): `Option` and `Result`.
- `Sequences` (`sequences.dfy`): generic facts about concatenation, slicing and prefixes, used as proof steps by the other modules.
- `Strings` (`text.dfy`): the Python string operations the generator uses:
  - `str * n`, `startswith`, `endswith`;
  - `sep.join`, `str.split(c)` and `split(c)[0]`;
  - `int(...)` on digit strings.

  It also proves the split/join round trip. `NatToString`, a decimal printer,
  exists only to state that `int(...)` inverts the printing of a number. The
  generator prints no numbers itself; its `str(...)` calls act on strings.
- `Events` (`events.dfy`):
  - the event model: references, events, and the model as an insertion-ordered map;
  - the exceptions the generator can raise.
- `Writer` (`writer.dfy`):
  - `write` and the `iidx` indent counter;
  - each write recorded as a `(depth, text)` line;
  - the file text as the rendering of those lines.
- `PropertyRules` (`property_rules.dfy`):
  - the two first-match-wins chains `get_property_value` and `get_property_data_type`, also restated as explicit rule tables;
  - the `ObjectIdNames` symbol lookup.
- `Generator` (`generator.dfy`): `make_header`, `add_properties`, `generate_event_class` and `generate_events_code`.

Python exceptions are modelled as data. The operations that can raise
(`add_properties`, `generate_event_class`, the class loop and
`generate_events_code`) return a `Run`:

- `Ok(emitter)` when it finishes;
- `Crash(emitter, failure)` when Python would raise. The emitter in a
  `Crash` holds everything written before the exception.

This matters for `generate_events_code`:

- It does not check the model up front.
- A missing parent raises `KeyError` only after the header and all earlier
  classes have been written.
- The model therefore says the file is never empty. It does not say that a
  bad model produces no output.

`make_header`, the class prologue and the registry writes cannot raise. They
return the `Emitter` itself.

The class operations take the per-reference line builder as a parameter
(`LineBuilder`). `GenerateEventsCode` passes `PropertyBuilder(ids)`, which is
`PropertyText` over the `ObjectIdNames` table `ids`. The other generator
operations take any builder.

## Model

| member | source | states |
|---|---|---|
| `Writer.Render` | schemas/generate_event_objects.py:22-25 | A written line is a bare newline when empty at any depth. Otherwise it is four spaces per indent level (none for `iidx <= 0`), then the text, then a newline. |
| `Writer.WriteAppendsChunk` | schemas/generate_event_objects.py:22-25 | One `write` appends exactly that chunk to the file, at the current `iidx`. |
| `Writer.RenderRoundTrip` | schemas/generate_event_objects.py:22-25 | Knowing the depth, the text of every written line can be read back from its chunk. |
| `Writer.Write` | schemas/generate_event_objects.py:22-25 | `write` keeps `iidx` and appends exactly one line after everything already written. |
| `Writer.FileTextAppend` | schemas/generate_event_objects.py:25 | The file text of two consecutive runs of writes is the concatenation of their texts. |
| `Writer.WriteAll` | schemas/generate_event_objects.py:28-37 | Consecutive writes without an `iidx` change add their lines, in order, at the current depth. |
| `Writer.Shift` | schemas/generate_event_objects.py:75 | `self.iidx += n` writes nothing, and the next `write` lands exactly `n` levels deeper. |
| `Writer.RaiseTwiceThenLower` | schemas/generate_event_objects.py:75-100 | A class's two `iidx += 1` and its closing `iidx -= 2` restore the depth. The lines written after the first raise sit one level in, those after the second two levels in. |
| `Strings.Repeat` | schemas/generate_event_objects.py:24 | `indent * iidx` has length `4 * iidx` for positive `iidx`, is empty otherwise, and contains only indent characters. |
| `Strings.StartsWithSplits` | schemas/generate_event_objects.py:65 | `startswith(p)` holds of `p + rest` for every `rest`, and a text that starts with `p` is `p` followed by its remainder. |
| `Strings.EndsWithSplits` | schemas/generate_event_objects.py:63 | `endswith(t)` holds of `front + t` for every `front`, and a text that ends with `t` is its front followed by `t`. |
| `Strings.Split` | schemas/generate_event_objects.py:58 | `split(c)` gives at least one piece, none containing `c`, and exactly one piece when `c` does not occur. |
| `Strings.SplitJoin` | schemas/generate_event_objects.py:58 | Joining the pieces of `split(c)` with `c` gives the input back. |
| `Strings.FirstSegment` | schemas/generate_event_objects.py:58 | `split("_")[0]` is a prefix of the name and has no underscore. It is the whole name when there is no underscore, and otherwise it stops right at the first one. |
| `Strings.ParseNat` | schemas/generate_event_objects.py:58 | `int(...)` succeeds exactly on non-empty digit strings. |
| `Strings.ParseNatToString` | schemas/generate_event_objects.py:58 | Parsing the decimal text of any number gives the number back. |
| `Strings.JoinPlacesParts` | schemas/generate_event_objects.py:35 | Every part of `", ".join(...)` appears unchanged and in order at its offset. |
| `Strings.JoinPlacesSeparators` | schemas/generate_event_objects.py:35 | Between part `k` and part `k + 1` of a join there is exactly the separator. |
| `Strings.JoinLength` | schemas/generate_event_objects.py:35 | Joining no parts gives the empty text. A join of `n > 0` parts is exactly as long as the parts plus `n - 1` separators, so nothing else is inserted. |
| `Events.Values` | schemas/generate_event_objects.py:103-104 | `model.values()` lists, in insertion order, the event stored under each key. |
| `Events.ParentOf` | schemas/generate_event_objects.py:108 | `model[event.parentNodeId]` finds an event exactly when the event has a parent id that is a key of the model, and it is the event stored under that key. |
| `Events.ParentIsListed` | schemas/generate_event_objects.py:103-109 | A parent found this way is itself one of `model.values()`, so the class loop visits it. |
| `PropertyRules.Resolve` | schemas/generate_event_objects.py:57-58 | The symbol lookup fails exactly when there is no `=` with `NoIdField`; any other failure is `NotAnInteger` or an `UnknownIdentifier` for a number missing from `ObjectIdNames`. On success the symbol has no underscore. |
| `PropertyRules.ResolveField` | schemas/generate_event_objects.py:58 | For any identifier `<head>=<field>`, optionally followed by another `=` and more text: the lookup raises `NotAnInteger(field)` exactly when `int` rejects the field. Otherwise it succeeds exactly when the number is in the table, fails with `UnknownIdentifier` for that number when it is not, and on success gives the first `_`-segment of the table's name. |
| `Strings.SecondField` | schemas/generate_event_objects.py:58 | `split("=")[1]` is the text between the first and the second `=`, or everything after the first `=` when there is no second. |
| `PropertyRules.ResolveNumeric` | schemas/generate_event_objects.py:57-58 | For `<head>=<n>` the lookup succeeds exactly when `n` is in the table. The symbol is then the prefix of the table's name up to its first underscore, or the whole name when it has none. |
| `PropertyRules.PropertyValue` | schemas/generate_event_objects.py:47-60 | The four parameter names always give their fixed, non-`None` value. The result is `None` exactly when the name is no parameter and the data type is not `NodeId`. Only the `NodeId` rule can fail, and then exactly as the lookup of `refId` fails. |
| `PropertyRules.ParameterNamesIgnoreDataType` | schemas/generate_event_objects.py:48-56 | The four parameter names win before the data type: changing the data type or the identifier does not change their value. |
| `PropertyRules.ValueChainIsFirstMatch` | schemas/generate_event_objects.py:47-60 | `get_property_value` equals the six-rule table read first-match-wins. |
| `PropertyRules.PropertyDataType` | schemas/generate_event_objects.py:62-69 | A name ending in `Time` always gives `ua.VariantType.DateTime`. A failure needs an `i=` data type. Any other data type is passed through unvalidated after `ua.VariantType.`. |
| `PropertyRules.TagChainIsFirstMatch` | schemas/generate_event_objects.py:62-69 | `get_property_data_type` equals the three-rule table read first-match-wins. |
| `PropertyRules.MessageRuleBeatsNodeIdRule` | schemas/generate_event_objects.py:47-69 | The two chains are independent. A `Message` property with an `i=<n>` data type takes its value from the `Message` rule and its tag from the node-reference rule. |
| `PropertyRules.PropertyText` | schemas/generate_event_objects.py:42-45 | The `add_property` line is built exactly when both value and tag are. It is exactly the quoted name, then the value, then the tag. The value is computed first: if it fails, its exception is the one raised; if only the tag fails, the tag's exception is the one raised. |
| `Generator.MakeHeader` | schemas/generate_event_objects.py:27-37 | `make_header` keeps `iidx` and appends exactly its nine lines at the current depth: the quoted docstring, a blank line, the two imports, a blank line, the `__all__` line and a blank line. |
| `Generator.AllLineListsEveryName` | schemas/generate_event_objects.py:35-36 | `__all__` lists every event's browse name, quoted, at its place after the earlier names and their separators. |
| `Generator.AllLineSeparatesNames` | schemas/generate_event_objects.py:35-36 | Consecutive quoted names in `__all__` are separated by exactly `", "`. |
| `Generator.AllLineFrame` | schemas/generate_event_objects.py:35-36 | The line starts with `__all__ = [` and ends with `]`. It is `__all__ = []` for no events, and otherwise exactly as long as the prefix, the quoted names, the separators and the bracket, so it holds nothing else. |
| `Generator.Props` | schemas/generate_event_objects.py:40-41 | `add_properties` acts only on `HasProperty` references, and on every one of them. |
| `Generator.PropsOne` | schemas/generate_event_objects.py:40-41 | A single reference is acted on exactly when its type is `HasProperty`. |
| `Generator.PropsAppend` | schemas/generate_event_objects.py:40-41 | The references acted on in `a + b` are those of `a` followed by those of `b`. With `PropsOne` this fixes the order and the multiplicity: `Props` is the order-preserving filter on `HasProperty`. |
| `Generator.FailureIndex` | schemas/generate_event_objects.py:40-45 | The position of the first reference whose line raises, with every earlier line buildable. |
| `Generator.AddProperties` | schemas/generate_event_objects.py:39-45 | `add_properties` keeps `iidx` and only appends. When it finishes it adds one line per reference of `Props`, the order-preserving `HasProperty` filter. |
| `Generator.AddPropertiesOutput` | schemas/generate_event_objects.py:39-45 | It writes the lines of the `HasProperty` references before the first failing one, at the entry depth. It finishes exactly when none fails, and otherwise raises that reference's error. |
| `Generator.AddPropertiesCompletes` | schemas/generate_event_objects.py:39-45 | With no failing reference, the line of every `HasProperty` reference is written, once per occurrence, in reference order. |
| `Generator.DescriptionLineReads` | schemas/generate_event_objects.py:77-80 | The docstring text is the browse name and `": "`, followed by the description, or by nothing when there is none. |
| `Generator.WritePrologue` | schemas/generate_event_objects.py:72-98 | Before the properties: the blank line and the `class` line at the entry depth, the docstring and signature one level in, the constructor's first statements two levels in. |
| `Generator.GenerateEventClass` | schemas/generate_event_objects.py:71-100 | A class starts with a blank line and only appends. On completion `iidx` is restored. A raise leaves `iidx` where it stood. |
| `Generator.GenerateEventClassOutput` | schemas/generate_event_objects.py:71-100 | A class completes exactly when the event is the root or has a parent name and all property lines build. It then adds exactly the class text. A failing property leaves the prologue and the earlier property lines, two levels in. |
| `Generator.ClassStopsAtProperty` | schemas/generate_event_objects.py:85-100 | When a property raises, the `iidx -= 2` is never reached. |
| `Generator.ClassShape` | schemas/generate_event_objects.py:71-99 | `BaseEvent` derives from `Event` and its constructor starts with `Event.__init__(self)`. Any other event derives from its parent name and emits the `super` call, then `EventType`, then its properties. |
| `Generator.ClassLines` | schemas/generate_event_objects.py:71-100 | A complete class has 7 lines (root) or 8 lines (other events) plus one per `HasProperty` reference, counted with multiplicity. |
| `Generator.CloseClass` | schemas/generate_event_objects.py:100 | `self.iidx -= 2` runs only when no exception was raised: it writes nothing, lowers a finished run by two and leaves a crashed run as it is. |
| `Generator.ParentName` | schemas/generate_event_objects.py:105-109 | The parent name passed to the class is given exactly for a non-root event whose parent id is a key of the model, and it is the browse name of the event under that key. |
| `Generator.EmitClasses` | schemas/generate_event_objects.py:104-109 | The class loop only appends, and it keeps the depth when it finishes. |
| `Generator.EmitClassesOutput` | schemas/generate_event_objects.py:104-109 | The loop finishes exactly when every event is the root or has its parent in the model, with buildable properties. It then writes every class, in model order. |
| `Generator.ClassesInModelOrder` | schemas/generate_event_objects.py:104-109 | The `k`-th class written is the `k`-th event of the model. It derives from the browse name of `model[parentNodeId]`. |
| `Generator.WriteRegistry` | schemas/generate_event_objects.py:110-116 | Two blank lines and the registry opening, then the entries and `}` one level deeper. `iidx` is raised and never lowered. |
| `Generator.RegistryEntryReads` | schemas/generate_event_objects.py:115 | A registry entry names its event twice: right after `ua.ObjectIds.` and right before the final comma, and it is `2 * len(name) + 20` characters long. |
| `Generator.RegistryEntryInjective` | schemas/generate_event_objects.py:115 | Different browse names give different registry entries. |
| `Generator.GenerateEventsCode` | schemas/generate_event_objects.py:102-116 | The file always starts with the header, even when a later step raises. On completion `iidx` is left at 1. |
| `Generator.GenerateEventsCodeOutput` | schemas/generate_event_objects.py:102-116 | The file is produced exactly when every event can be emitted. It is then the header, every class in model order, and the registry. |
| `Generator.RegistryMatchesModel` | schemas/generate_event_objects.py:113-116 | When every event can be emitted the run completes. The registry then has one entry per model key, naming its event, in insertion order, one level in, and the closing brace is at depth 1. |
| `Generator.MissingParentKeepsEarlierOutput` | schemas/generate_event_objects.py:103-109 | An event whose parent is missing raises `KeyError` after the header and every earlier class are written, and before any of its own lines. |
| `Generator.FileStartsWithHeader` | schemas/generate_event_objects.py:103 | Whatever happens later, the file text begins with the rendered header. |
| `Generator.AllEmittableByKeys` | schemas/generate_event_objects.py:104 | The class loop can get through `model.values()` exactly when every key's event can be emitted, whatever the insertion order. |
| `Generator.OrderIrrelevant` | schemas/generate_event_objects.py:103-109 | No ordering is enforced: two models with the same entries in any two insertion orders both produce the file or both fail. A child may come before its parent. |
| `Generator.ChildBeforeParent` | schemas/generate_event_objects.py:104-109 | An example of the general `OrderIrrelevant`: a model listing a child before its root parent is emitted. |
| `Generator.OrphanLeavesHeader` | schemas/generate_event_objects.py:103-109 | An example of the general `MissingParentKeepsEarlierOutput`: a model whose only event has an absent parent fails with exactly the header written. |

## Left out

- `event_list` (`schemas/generate_event_objects.py:15-20`) is left out. It parses XML and prints, and generation never uses it.
- The `__main__` block (`schemas/generate_event_objects.py:119-126`) is left out. Opening the output file and running the external XML parser are I/O.
- The constructor (`schemas/generate_event_objects.py:9-13`) appears only as its initial state: `Writer.Fresh` with `iidx` 0, and the indent unit `Writer.IndentUnit`.
- The output file object is modelled as the sequence of written lines. Flushing and encoding are not modelled.
- The contents of `asyncua.ua.object_ids.ObjectIdNames` belong to another package. The table is a parameter (`IdNames`), and a missing key is the failure `UnknownIdentifier`.
- Strings.ParseNat: accepts only non-empty ASCII digit strings. Python's `int` also accepts surrounding whitespace, a sign, `_` between digits and other Unicode digits. Those inputs are reported as `NotAnInteger` here.
- The `str(...)` conversions of `refBrowseName`, `refDataType` and `refId` are identities here, because the model's fields are strings. A non-string value's `str` form is not modelled.
- Generator.GenerateEventClass: only the first extra positional argument is modelled. The source reads only `parent_event_browse_name[0]`.
- No validation the code lacks is added: duplicate names, parent-before-child order and cycles go unchecked. The root is recognised only by the name `BaseEvent`.

=== FILE: events.dfy ===
/** The in-memory event model the generator reads: an insertion-ordered map
    from node id to event, each event carrying its property references. */
module Events {
  import opened Outcomes

  type NodeKey = string

  /** The numeric-identifier-to-symbol table `ObjectIdNames`; its contents
      belong to another package, so it is a parameter of every operation. */
  type IdNames = map<nat, string>

  /** One reference of an event. Only `HasProperty` ones are emitted. */
  datatype Reference = Reference(
    referenceType: string,
    refBrowseName: string,
    refDataType: string,
    refId: string)

  datatype Event = Event(
    browseName: string,
    description: Option<string>,
    parentNodeId: Option<NodeKey>,
    references: seq<Reference>)

  /** A Python dict: the keys in insertion order, and the entries. */
  datatype EventModel = EventModel(order: seq<NodeKey>, nodes: map<NodeKey, Event>)

  /** The generator singles out the root by name, not by a missing parent. */
  const RootName: string := "BaseEvent"

  /** The exceptions the generator can raise, one per failing Python operation. */
  datatype Failure =
    | NoIdField(text: string)             // `text.split("=")[1]` has no second field
    | NotAnInteger(text: string)          // `int(text)` rejects the text
    | UnknownIdentifier(id: nat)          // `ObjectIdNames[id]` has no entry
    | MissingParentName(browseName: string)  // `parent_event_browse_name[0]` on no argument
    | UnresolvedParent(parent: Option<NodeKey>)  // `model[event.parentNodeId]` has no entry

  /** What a dict guarantees: each key once, and exactly the stored keys. */
  predicate IsOrderedMap(m: EventModel) {
    && (forall i, j :: 0 <= i < j < |m.order| ==> m.order[i] != m.order[j])
    && (forall i :: 0 <= i < |m.order| ==> m.order[i] in m.nodes)
    && (forall k :: k in m.nodes ==> k in m.order)
  }

  /** `model.values()`, in insertion order. */
  function Values(m: EventModel): (vs: seq<Event>)
    requires IsOrderedMap(m)
    ensures |vs| == |m.order|
    ensures forall i :: 0 <= i < |m.order| ==> vs[i] == m.nodes[m.order[i]]
  {
    seq(|m.order|, i requires 0 <= i < |m.order| => m.nodes[m.order[i]])
  }

  /** `model[event.parentNodeId]`, or `None` where Python raises `KeyError`. */
  function ParentOf(m: EventModel, e: Event): (p: Option<Event>)
    ensures p.Some? <==> e.parentNodeId.Some? && e.parentNodeId.value in m.nodes
    ensures p.Some? ==> p.value == m.nodes[e.parentNodeId.value]
  {
    match e.parentNodeId
    case Some(k) => if k in m.nodes then Some(m.nodes[k]) else None
    case None => None
  }

  /** A parent found by `model[event.parentNodeId]` is itself one of
      `model.values()`, so the class loop visits it. */
  lemma ParentIsListed(m: EventModel, e: Event)
    requires IsOrderedMap(m)
    ensures ParentOf(m, e).Some? ==> ParentOf(m, e).value in Values(m)
  {
    if ParentOf(m, e).Some? {
      var k := e.parentNodeId.value;
      var i :| 0 <= i < |m.order| && m.order[i] == k;
      assert Values(m)[i] == m.nodes[k];
    }
  }

  predicate IsRoot(e: Event) {
    e.browseName == RootName
  }
}

=== FILE: generator.dfy ===
/** `EventsCodeGenerator`: the module header, one class per event in model
    order, and the trailing `IMPLEMENTED_EVENTS` registry. The operations
    that can raise (`add_properties`, `generate_event_class`, the class loop
    and `generate_events_code`) return a `Run`: either the emitter after it
    finished, or the emitter as it stood when Python would have raised,
    together with the failure. `make_header`, the class prologue and the
    registry writes cannot raise and return the `Emitter` itself. */
module Generator {
  import opened Outcomes
  import opened Sequences
  import opened Strings
  import opened Events
  import opened Writer
  import opened PropertyRules

  datatype Run = Ok(em: Emitter) | Crash(em: Emitter, failure: Failure)

  /** What `add_properties` computes for one reference: the whole
      `add_property` line, or the exception its value or tag raises. The
      class-level operations take it as a parameter; `GenerateEventsCode`
      passes `PropertyBuilder(ids)`, the two rule chains over `ObjectIdNames`. */
  type LineBuilder = Reference -> Result<string, Failure>

  function PropertyBuilder(ids: IdNames): LineBuilder {
    (ref: Reference) => PropertyText(ids, ref)
  }

  // ---------------------------------------------------------------------------
  // make_header

  const Quotes: string := "\"\"\""

  function Quote(name: string): string {
    "\"" + name + "\""
  }

  function QuotedNames(events: seq<Event>): (qs: seq<string>)
    ensures |qs| == |events|
    ensures forall i :: 0 <= i < |events| ==> qs[i] == Quote(events[i].browseName)
  {
    seq(|events|, i requires 0 <= i < |events| => Quote(events[i].browseName))
  }

  const AllPrefix: string := "__all__ = ["

  function AllLine(events: seq<Event>): string {
    AllPrefix + Join(QuotedNames(events), ", ") + "]"
  }

  function HeaderLines(events: seq<Event>): seq<string> {
    [ Quotes, "Autogenerated code from xml spec", Quotes, "",
      "from asyncua import ua", "from .events import Event", "",
      AllLine(events), "" ]
  }

  const HeaderSize: nat := 9

  /** `make_header`: nine lines at the current depth, the `__all__` line
      eighth. */
  function MakeHeader(em: Emitter, events: seq<Event>): (r: Emitter)
    ensures r.iidx == em.iidx
    ensures |r.out| == |em.out| + HeaderSize && r.out[..|em.out|] == em.out
    ensures r.out[|em.out| + 7] == Line(em.iidx, AllLine(events))
    ensures r.out[|em.out|] == Line(em.iidx, Quotes) && r.out[|em.out| + 8] == Line(em.iidx, "")
    ensures r.out == em.out + AtDepth(em.iidx, HeaderLines(events))
  {
    WriteAll(em, HeaderLines(events))
  }

  /** The `__all__` list names every event, quoted, in model order: the
      `k`-th name sits right after the `k` earlier quoted names and their
      `", "` separators. */
  lemma AllLineListsEveryName(events: seq<Event>, k: nat)
    requires k < |events|
    ensures var line := AllLine(events);
      var o := |AllPrefix| + JoinOffset(QuotedNames(events), ", ", k);
      var q := Quote(events[k].browseName);
      o + |q| <= |line| && line[o..o + |q|] == q
  {
    FramedJoinPart(AllPrefix, QuotedNames(events), ", ", "]", k);
  }

  /** Consecutive names of the `__all__` list are separated by `", "` and
      by nothing else. */
  lemma AllLineSeparatesNames(events: seq<Event>, k: nat)
    requires k + 1 < |events|
    ensures var line := AllLine(events);
      var qs := QuotedNames(events);
      var after := |AllPrefix| + JoinOffset(qs, ", ", k) + |qs[k]|;
      var next := |AllPrefix| + JoinOffset(qs, ", ", k + 1);
      next <= |line| && line[after..next] == ", "
  {
    FramedJoinSeparator(AllPrefix, QuotedNames(events), ", ", "]", k);
  }

  /** The `__all__` line is `__all__ = [`, the joined names and `]`, and
      nothing else: it is as long as the prefix, the quoted names, the
      separators between them and the bracket, and `__all__ = []` for no
      events. */
  lemma AllLineFrame(events: seq<Event>)
    ensures var line := AllLine(events);
      var qs := QuotedNames(events);
      && StartsWith(line, AllPrefix)
      && line[|line| - 1] == ']'
      && (events == [] ==> line == "__all__ = []")
      && (events != [] ==> |line| + 1 == |AllPrefix| + JoinOffset(qs, ", ", |qs|))
  {
    var qs := QuotedNames(events);
    JoinLength(qs, ", ");
    var j := Join(qs, ", ");
    ConcatAssoc(AllPrefix, j, "]");
    AppendHalves(AllPrefix, j + "]");
  }

  // ---------------------------------------------------------------------------
  // add_properties

  /** The references `add_properties` acts on, in order. */
  function Props(refs: seq<Reference>): (ps: seq<Reference>)
    ensures |ps| <= |refs|
    ensures forall i :: 0 <= i < |ps| ==> ps[i].referenceType == "HasProperty"
    ensures forall i :: 0 <= i < |refs| && refs[i].referenceType == "HasProperty" ==> refs[i] in ps
  {
    if refs == [] then []
    else if refs[0].referenceType == "HasProperty" then [refs[0]] + Props(refs[1..])
    else
      assert forall i :: 1 <= i < |refs| ==> refs[i] == refs[1..][i - 1];
      Props(refs[1..])
  }

  /** A single reference is kept exactly when it is a `HasProperty` one. */
  lemma PropsOne(r: Reference)
    ensures Props([r]) == if r.referenceType == "HasProperty" then [r] else []
  {
    assert [r][1..] == [];
  }

  /** Filtering commutes with concatenation: together with `PropsOne` this
      fixes `Props` as the order-preserving filter that keeps every
      `HasProperty` reference exactly as often as it occurs. */
  lemma {:induction false} PropsAppend(a: seq<Reference>, b: seq<Reference>)
    ensures Props(a + b) == Props(a) + Props(b)
    decreases |a|
  {
    if a == [] {
      assert a + b == b;
    } else {
      PropsAppend(a[1..], b);
      assert (a + b)[0] == a[0];
      assert (a + b)[1..] == a[1..] + b;
      if a[0].referenceType == "HasProperty" {
        ConcatAssoc([a[0]], Props(a[1..]), Props(b));
      }
    }
  }

  predicate PropsOk(build: LineBuilder, ps: seq<Reference>) {
    forall i :: 0 <= i < |ps| ==> build(ps[i]).Success?
  }

  /** Index of the first reference whose line cannot be built, or `|ps|`. */
  function FailureIndex(build: LineBuilder, ps: seq<Reference>): (k: nat)
    ensures k <= |ps|
    ensures PropsOk(build, ps[..k])
    ensures k < |ps| ==> build(ps[k]).Failure?
  {
    if ps == [] then 0
    else if build(ps[0]).Failure? then 0
    else
      var k := 1 + FailureIndex(build, ps[1..]);
      assert forall i :: 1 <= i < k ==> ps[..k][i] == ps[1..][..k - 1][i - 1];
      k
  }

  /** The `add_property` lines for references whose lines can all be built. */
  function PropertyLines(build: LineBuilder, ps: seq<Reference>): (lines: seq<string>)
    requires PropsOk(build, ps)
    ensures |lines| == |ps|
    ensures forall i :: 0 <= i < |ps| ==> lines[i] == build(ps[i]).value
  {
    seq(|ps|, i requires 0 <= i < |ps| => build(ps[i]).value)
  }

  /** `add_properties`: one line per `HasProperty` reference, in order, at the
      current depth; stops at the first reference whose value or tag raises. */
  function AddProperties(build: LineBuilder, em: Emitter, refs: seq<Reference>): (r: Run)
    ensures r.em.iidx == em.iidx
    ensures |em.out| <= |r.em.out| && r.em.out[..|em.out|] == em.out
    ensures r.Ok? ==> |r.em.out| == |em.out| + |Props(refs)|
    decreases |refs|
  {
    if refs == [] then Ok(em)
    else if refs[0].referenceType == "HasProperty" then
      match build(refs[0])
      case Failure(f) => Crash(em, f)
      case Success(line) =>
        var r := AddProperties(build, Write(em, line), refs[1..]);
        PrefixTrans(em.out, Write(em, line).out, r.em.out);
        r
    else AddProperties(build, em, refs[1..])
  }

  /** What `add_properties` leaves behind: the lines of every `HasProperty`
      reference before the first failing one, all at the entry depth; it
      finishes exactly when none fails, and otherwise reports that one's error. */
  lemma {:induction false} AddPropertiesOutput(build: LineBuilder, em: Emitter, refs: seq<Reference>)
    ensures AddPropertiesLeaves(build, em, refs, AddProperties(build, em, refs))
    decreases |refs|
  {
    if refs == [] {
      assert Props(refs)[..0] == [];
    } else if refs[0].referenceType != "HasProperty" {
      AddPropertiesOutput(build, em, refs[1..]);
      SkipStep(build, em, refs);
    } else if build(refs[0]).Failure? {
      FailStep(build, em, refs);
    } else {
      var line := build(refs[0]).value;
      AddPropertiesOutput(build, Write(em, line), refs[1..]);
      WriteStep(build, em, refs);
    }
  }

  lemma SkipStep(build: LineBuilder, em: Emitter, refs: seq<Reference>)
    requires refs != [] && refs[0].referenceType != "HasProperty"
    requires AddPropertiesLeaves(build, em, refs[1..], AddProperties(build, em, refs[1..]))
    ensures AddPropertiesLeaves(build, em, refs, AddProperties(build, em, refs))
  {
    assert AddProperties(build, em, refs) == AddProperties(build, em, refs[1..]);
    assert Props(refs) == Props(refs[1..]);
  }

  lemma FailStep(build: LineBuilder, em: Emitter, refs: seq<Reference>)
    requires refs != [] && refs[0].referenceType == "HasProperty"
    requires build(refs[0]).Failure?
    ensures AddPropertiesLeaves(build, em, refs, AddProperties(build, em, refs))
  {
    assert Props(refs)[..0] == [];
  }

  lemma WriteStep(build: LineBuilder, em: Emitter, refs: seq<Reference>)
    requires refs != [] && refs[0].referenceType == "HasProperty"
    requires build(refs[0]).Success?
    requires var em' := Write(em, build(refs[0]).value);
      AddPropertiesLeaves(build, em', refs[1..], AddProperties(build, em', refs[1..]))
    ensures AddPropertiesLeaves(build, em, refs, AddProperties(build, em, refs))
  {
    var line := build(refs[0]).value;
    var em' := Write(em, line);
    var r := AddProperties(build, em', refs[1..]);
    assert AddProperties(build, em, refs) == r;
    var ps, ps' := Props(refs), Props(refs[1..]);
    assert ps == [refs[0]] + ps';
    var k' := FailureIndex(build, ps');
    FailureIndexCons(build, refs[0], ps');
    PrefixCons(refs[0], ps', k');
    LinesOfConsPrefix(build, em.iidx, refs[0], ps', k');
    var tail := AtDepth(em.iidx, PropertyLines(build, ps'[..k']));
    assert em'.iidx == em.iidx;
    assert r.em.out == em'.out + tail;
    assert em'.out == em.out + [Line(em.iidx, line)];
    ConcatAssoc(em.out, [Line(em.iidx, line)], tail);
  }

  /** The outcome `AddPropertiesOutput` describes, as a predicate of the run. */
  predicate AddPropertiesLeaves(build: LineBuilder, em: Emitter, refs: seq<Reference>, r: Run) {
    var ps := Props(refs);
    var k := FailureIndex(build, ps);
    && r.em.out == em.out + AtDepth(em.iidx, PropertyLines(build, ps[..k]))
    && (r.Ok? <==> k == |ps|)
    && (r.Crash? ==> k < |ps| && r.failure == build(ps[k]).error)
  }

  /** A reference whose line can be built puts its line in front of the
      lines of the references after it. */
  lemma LinesOfConsPrefix(build: LineBuilder, d: int, head: Reference, ps: seq<Reference>, k: nat)
    requires k <= |ps|
    requires build(head).Success? && PropsOk(build, ps[..k])
    ensures PropsOk(build, ([head] + ps)[..k + 1])
    ensures AtDepth(d, PropertyLines(build, ([head] + ps)[..k + 1]))
         == [Line(d, build(head).value)] + AtDepth(d, PropertyLines(build, ps[..k]))
  {
    PrefixCons(head, ps, k);
    PropertyLinesCons(build, head, ps[..k]);
    AtDepthCons(d, build(head).value, PropertyLines(build, ps[..k]));
  }

  lemma FailureIndexCons(build: LineBuilder, head: Reference, ps: seq<Reference>)
    requires build(head).Success?
    ensures FailureIndex(build, [head] + ps) == FailureIndex(build, ps) + 1
  {
    var all := [head] + ps;
    assert all[0] == head;
    assert all[1..] == ps;
  }

  lemma PropertyLinesCons(build: LineBuilder, head: Reference, ps: seq<Reference>)
    requires build(head).Success?
    requires PropsOk(build, ps)
    ensures PropsOk(build, [head] + ps)
    ensures PropertyLines(build, [head] + ps) == [build(head).value] + PropertyLines(build, ps)
  {
    var all := [head] + ps;
    assert forall i :: 1 <= i < |all| ==> all[i] == ps[i - 1];
  }

  // ---------------------------------------------------------------------------
  // generate_event_class

  const InitSignature: string := "def __init__(self, sourcenode=None, message=None, severity=1):"
  const RootInit: string := "Event.__init__(self)"

  function SuperCall(name: string): string {
    "super(" + name + ", self).__init__(sourcenode, message, severity)"
  }

  function EventTypeLine(name: string): string {
    "self.EventType = ua.NodeId(ua.ObjectIds." + name + "Type)"
  }

  /** The docstring's text. */
  function DescriptionLine(e: Event): string {
    match e.description
    case Some(d) => e.browseName + ": " + d
    case None => e.browseName + ": "
  }

  /** The docstring's text is the browse name and `": "`, followed by the
      description, or by nothing when there is none. */
  lemma DescriptionLineReads(e: Event)
    ensures StartsWith(DescriptionLine(e), e.browseName + ": ")
    ensures DescriptionLine(e)[|e.browseName| + 2..]
         == match e.description case Some(d) => d case None => ""
  {
    var head := e.browseName + ": ";
    match e.description
    case Some(d) =>
      AppendHalves(head, d);
    case None =>
  }

  /** The `class` line: the root derives from `Event`, any other event from
      the parent name it is given. */
  function ClassHead(e: Event, parentName: Option<string>): string
    requires IsRoot(e) || parentName.Some?
  {
    if IsRoot(e) then "class " + e.browseName + "(Event):"
    else "class " + e.browseName + "(" + parentName.value + "):"
  }

  /** Everything a class definition holds before its property lines, as
      `(depth, text)` pairs relative to the entry depth `d`. */
  function ClassPrologue(d: int, e: Event, parentName: Option<string>): (p: seq<Line>)
    requires IsRoot(e) || parentName.Some?
  {
    [ Line(d, ""), Line(d, ClassHead(e, parentName)),
      Line(d + 1, Quotes), Line(d + 1, DescriptionLine(e)), Line(d + 1, Quotes),
      Line(d + 1, InitSignature) ]
    + (if IsRoot(e) then [Line(d + 2, RootInit)]
       else [Line(d + 2, SuperCall(e.browseName)), Line(d + 2, EventTypeLine(e.browseName))])
  }

  /** Number of lines one class takes when it is emitted completely. */
  function ClassSize(e: Event): nat {
    (if IsRoot(e) then 7 else 8) + |Props(e.references)|
  }

  /** The complete text of one class at entry depth `d`. */
  function ClassLines(build: LineBuilder, d: int, e: Event, parentName: Option<string>): (ls: seq<Line>)
    requires IsRoot(e) || parentName.Some?
    requires PropsOk(build, Props(e.references))
    ensures |ls| == ClassSize(e)
  {
    ClassPrologue(d, e, parentName) + AtDepth(d + 2, PropertyLines(build, Props(e.references)))
  }

  /** `self.iidx -= 2`, reached only when no exception was raised. */
  function CloseClass(r: Run): (c: Run)
    ensures c.em.out == r.em.out
    ensures c.Ok? <==> r.Ok?
    ensures c.Ok? ==> c.em.iidx == r.em.iidx - 2
    ensures c.Crash? ==> c == r
  {
    match r
    case Ok(em) => Ok(Shift(em, -2))
    case Crash(_, _) => r
  }

  function WriteDocstring(em: Emitter, e: Event): Emitter {
    WriteAll(em, [Quotes, DescriptionLine(e), Quotes])
  }

  /** The writes `generate_event_class` makes before `add_properties`: the
      blank line and the `class` line at the entry depth, the docstring and
      the `__init__` signature one level deeper, then the constructor's first
      statements two levels deeper. */
  function WritePrologue(em: Emitter, e: Event, parentName: Option<string>): (r: Emitter)
    requires IsRoot(e) || parentName.Some?
    ensures r.iidx == em.iidx + 2
    ensures r.out == em.out + ClassPrologue(em.iidx, e, parentName)
  {
    var em1 := Write(em, "");
    var em2 := Shift(Write(em1, ClassHead(e, parentName)), 1);
    var em3 := Shift(Write(WriteDocstring(em2, e), InitSignature), 1);
    if IsRoot(e) then Write(em3, RootInit)
    else Write(Write(em3, SuperCall(e.browseName)), EventTypeLine(e.browseName))
  }

  /** `generate_event_class(event, *parent_event_browse_name)`. A non-root
      event without a parent name raises right after the blank line. */
  function GenerateEventClass(build: LineBuilder, em: Emitter, e: Event, parentName: Option<string>): (r: Run)
    ensures |em.out| < |r.em.out| && r.em.out[..|em.out|] == em.out
    ensures r.em.out[|em.out|] == Line(em.iidx, "")
    ensures r.Ok? ==> r.em.iidx == em.iidx
    ensures r.Crash? ==> r.em.iidx == em.iidx || r.em.iidx == em.iidx + 2
  {
    if !IsRoot(e) && parentName.None? then Crash(Write(em, ""), MissingParentName(e.browseName))
    else
      var em' := WritePrologue(em, e, parentName);
      var a := AddProperties(build, em', e.references);
      assert em'.out[|em.out|] == Line(em.iidx, "");
      assert a.em.out[..|em'.out|] == em'.out;
      assert a.em.out[..|em.out|] == em'.out[..|em.out|] == em.out;
      assert a.em.out[|em.out|] == em'.out[|em.out|];
      CloseClass(a)
  }

  /** One class, completely: it finishes exactly when the event is the root
      or has a parent name and every `HasProperty` line can be built, and then
      adds precisely the class text at the entry depth. When a property
      raises, the prologue and the earlier property lines are written and the
      depth is left two levels deeper. */
  lemma GenerateEventClassOutput(build: LineBuilder, em: Emitter, e: Event, parentName: Option<string>)
    ensures ClassLeaves(build, em, e, parentName, GenerateEventClass(build, em, e, parentName))
  {
    if IsRoot(e) || parentName.Some? {
      PrologueThenProperties(build, em, e, parentName);
    }
  }

  predicate ClassLeaves(build: LineBuilder, em: Emitter, e: Event, parentName: Option<string>, r: Run) {
    && (r.Ok? <==> (IsRoot(e) || parentName.Some?) && PropsOk(build, Props(e.references)))
    && (r.Ok? ==> r.em.out == em.out + ClassLines(build, em.iidx, e, parentName))
    && (!IsRoot(e) && parentName.None? ==>
          r == Crash(Write(em, ""), MissingParentName(e.browseName)))
    && ((IsRoot(e) || parentName.Some?) && r.Crash? ==>
          var ps := Props(e.references);
          var k := FailureIndex(build, ps);
          && k < |ps|
          && r.failure == build(ps[k]).error
          && r.em.iidx == em.iidx + 2
          && r.em.out == em.out + ClassPrologue(em.iidx, e, parentName)
                                + AtDepth(em.iidx + 2, PropertyLines(build, ps[..k])))
  }

  lemma PrologueThenProperties(build: LineBuilder, em: Emitter, e: Event, parentName: Option<string>)
    requires IsRoot(e) || parentName.Some?
    ensures ClassLeaves(build, em, e, parentName, GenerateEventClass(build, em, e, parentName))
  {
    if PropsOk(build, Props(e.references)) {
      ClassCompletes(build, em, e, parentName);
    } else {
      ClassStopsAtProperty(build, em, e, parentName);
    }
  }

  lemma ClassCompletes(build: LineBuilder, em: Emitter, e: Event, parentName: Option<string>)
    requires IsRoot(e) || parentName.Some?
    requires PropsOk(build, Props(e.references))
    ensures var r := GenerateEventClass(build, em, e, parentName);
      r.Ok? && r.em.out == em.out + ClassLines(build, em.iidx, e, parentName)
  {
    var em' := WritePrologue(em, e, parentName);
    assert em'.iidx == em.iidx + 2;
    ClassRunIs(build, em, e, parentName);
    AddPropertiesCompletes(build, em', e.references);
    ClassTextSplits(build, em, e, parentName, AddProperties(build, em', e.references).em.out);
  }

  lemma ClassRunIs(build: LineBuilder, em: Emitter, e: Event, parentName: Option<string>)
    requires IsRoot(e) || parentName.Some?
    ensures GenerateEventClass(build, em, e, parentName)
         == CloseClass(AddProperties(build, WritePrologue(em, e, parentName), e.references))
  {
  }

  lemma ClassTextSplits(build: LineBuilder, em: Emitter, e: Event, parentName: Option<string>, out: seq<Line>)
    requires IsRoot(e) || parentName.Some?
    requires PropsOk(build, Props(e.references))
    requires out == WritePrologue(em, e, parentName).out
                    + AtDepth(em.iidx + 2, PropertyLines(build, Props(e.references)))
    ensures out == em.out + ClassLines(build, em.iidx, e, parentName)
  {
    var pro := ClassPrologue(em.iidx, e, parentName);
    var props := AtDepth(em.iidx + 2, PropertyLines(build, Props(e.references)));
    assert ClassLines(build, em.iidx, e, parentName) == pro + props;
    ConcatAssoc(em.out, pro, props);
  }

  /** `add_properties` without a failing reference writes all its lines. */
  lemma AddPropertiesCompletes(build: LineBuilder, em: Emitter, refs: seq<Reference>)
    requires PropsOk(build, Props(refs))
    ensures var a := AddProperties(build, em, refs);
      a.Ok? && a.em.out == em.out + AtDepth(em.iidx, PropertyLines(build, Props(refs)))
  {
    AddPropertiesOutput(build, em, refs);
    var ps := Props(refs);
    assert ps[..FailureIndex(build, ps)] == ps;
  }

  lemma ClassStopsAtProperty(build: LineBuilder, em: Emitter, e: Event, parentName: Option<string>)
    requires IsRoot(e) || parentName.Some?
    requires !PropsOk(build, Props(e.references))
    ensures var r := GenerateEventClass(build, em, e, parentName);
      var ps := Props(e.references);
      var k := FailureIndex(build, ps);
      && r.Crash?
      && k < |ps|
      && r.failure == build(ps[k]).error
      && r.em.iidx == em.iidx + 2
      && r.em.out == em.out + ClassPrologue(em.iidx, e, parentName)
                            + AtDepth(em.iidx + 2, PropertyLines(build, ps[..k]))
  {
    var em' := WritePrologue(em, e, parentName);
    AddPropertiesOutput(build, em', e.references);
    var ps := Props(e.references);
    assert ps[..|ps|] == ps;
  }

  // ---------------------------------------------------------------------------
  // generate_events_code

  /** The parent name the driver hands to `generate_event_class`: none for
      the root, the browse name of `model[event.parentNodeId]` otherwise. */
  function ParentName(model: EventModel, e: Event): (r: Option<string>)
    ensures r.Some? <==> !IsRoot(e) && e.parentNodeId.Some? && e.parentNodeId.value in model.nodes
    ensures r.Some? ==> r.value == model.nodes[e.parentNodeId.value].browseName
  {
    if IsRoot(e) then None
    else match ParentOf(model, e)
      case Some(p) => Some(p.browseName)
      case None => None
  }

  /** The driver gets through an event exactly when it is the root or its
      parent is in the model, and all its property lines can be built. */
  predicate Emittable(build: LineBuilder, model: EventModel, e: Event) {
    (IsRoot(e) || ParentOf(model, e).Some?) && PropsOk(build, Props(e.references))
  }

  predicate AllEmittable(build: LineBuilder, model: EventModel, events: seq<Event>) {
    forall i :: 0 <= i < |events| ==> Emittable(build, model, events[i])
  }

  /** The loop over `model.values()`: one class per event, in order; an event
      whose parent is not in the model raises before anything of it is written. */
  function EmitClasses(build: LineBuilder, model: EventModel, em: Emitter, events: seq<Event>): (r: Run)
    ensures |em.out| <= |r.em.out| && r.em.out[..|em.out|] == em.out
    ensures r.Ok? ==> r.em.iidx == em.iidx
    decreases |events|
  {
    if events == [] then Ok(em)
    else
      var e := events[0];
      if !IsRoot(e) && ParentOf(model, e).None? then Crash(em, UnresolvedParent(e.parentNodeId))
      else match GenerateEventClass(build, em, e, ParentName(model, e))
        case Crash(em', f) => Crash(em', f)
        case Ok(em') =>
          var r := EmitClasses(build, model, em', events[1..]);
          PrefixTrans(em.out, em'.out, r.em.out);
          r
  }

  /** Number of lines the classes of `events` take when all are emitted. */
  function ClassesSize(events: seq<Event>): nat {
    if events == [] then 0 else ClassSize(events[0]) + ClassesSize(events[1..])
  }

  /** The complete text of the classes of `events`, back to back. */
  function ClassesText(build: LineBuilder, model: EventModel, d: int, events: seq<Event>): (ls: seq<Line>)
    requires AllEmittable(build, model, events)
    ensures |ls| == ClassesSize(events)
    decreases |events|
  {
    if events == [] then []
    else
      assert forall i :: 1 <= i < |events| ==> events[1..][i - 1] == events[i];
      ClassLines(build, d, events[0], ParentName(model, events[0]))
      + ClassesText(build, model, d, events[1..])
  }

  lemma AllEmittableTail(build: LineBuilder, model: EventModel, events: seq<Event>)
    requires events != []
    ensures AllEmittable(build, model, events)
        <==> Emittable(build, model, events[0]) && AllEmittable(build, model, events[1..])
  {
    assert forall i :: 1 <= i < |events| ==> events[1..][i - 1] == events[i];
  }

  /** The loop finishes exactly when every event can be emitted, and then
      adds the text of every class, in model order, at the entry depth. */
  lemma {:induction false} EmitClassesOutput(build: LineBuilder, model: EventModel, em: Emitter, events: seq<Event>)
    ensures ClassesLeave(build, model, em, events, EmitClasses(build, model, em, events))
    decreases |events|
  {
    if events != [] {
      var e := events[0];
      AllEmittableTail(build, model, events);
      if IsRoot(e) || ParentOf(model, e).Some? {
        var pn := ParentName(model, e);
        GenerateEventClassOutput(build, em, e, pn);
        var c := GenerateEventClass(build, em, e, pn);
        if c.Ok? {
          EmitClassesOutput(build, model, c.em, events[1..]);
          EmitClassesStep(build, model, em, events);
        }
      }
    }
  }

  /** The outcome `EmitClassesOutput` describes, as a predicate of the run. */
  predicate ClassesLeave(build: LineBuilder, model: EventModel, em: Emitter, events: seq<Event>, r: Run) {
    && (r.Ok? <==> AllEmittable(build, model, events))
    && (r.Ok? ==> r.em.out == em.out + ClassesText(build, model, em.iidx, events))
  }

  lemma EmitClassesStep(build: LineBuilder, model: EventModel, em: Emitter, events: seq<Event>)
    requires events != []
    requires Emittable(build, model, events[0])
    requires var c := GenerateEventClass(build, em, events[0], ParentName(model, events[0]));
      && c.Ok? && c.em.iidx == em.iidx
      && c.em.out == em.out + ClassLines(build, em.iidx, events[0], ParentName(model, events[0]))
      && ClassesLeave(build, model, c.em, events[1..], EmitClasses(build, model, c.em, events[1..]))
    ensures ClassesLeave(build, model, em, events, EmitClasses(build, model, em, events))
  {
    var e := events[0];
    var c := GenerateEventClass(build, em, e, ParentName(model, e));
    assert EmitClasses(build, model, em, events) == EmitClasses(build, model, c.em, events[1..]);
    AllEmittableTail(build, model, events);
    if AllEmittable(build, model, events) {
      var head := ClassLines(build, em.iidx, e, ParentName(model, e));
      var rest := ClassesText(build, model, em.iidx, events[1..]);
      assert ClassesText(build, model, em.iidx, events) == head + rest;
      ConcatAssoc(em.out, head, rest);
    }
  }

  /** Running the loop over a prefix of emittable events and then over the
      rest is running it over all of them. */
  lemma {:induction false} EmitClassesSplit(build: LineBuilder, model: EventModel, em: Emitter, events: seq<Event>, k: nat)
    requires k <= |events|
    requires AllEmittable(build, model, events[..k])
    ensures var pre := EmitClasses(build, model, em, events[..k]);
      pre.Ok? && EmitClasses(build, model, em, events) == EmitClasses(build, model, pre.em, events[k..])
    decreases k
  {
    if k == 0 {
      assert events[..0] == [];
      assert events[0..] == events;
    } else {
      var front := events[..k];
      AllEmittableTail(build, model, front);
      SliceAfterHead(events, k);
      var c := EmitClassesUnfold(build, model, em, events);
      var c' := EmitClassesUnfold(build, model, em, front);
      assert c' == c;
      EmitClassesSplit(build, model, c.em, events[1..], k - 1);
    }
  }

  /** One turn of the loop over an emittable event: its class completes and
      the loop goes on from there. */
  lemma EmitClassesUnfold(build: LineBuilder, model: EventModel, em: Emitter, events: seq<Event>)
      returns (c: Run)
    requires events != [] && Emittable(build, model, events[0])
    ensures c == GenerateEventClass(build, em, events[0], ParentName(model, events[0]))
    ensures c.Ok? && EmitClasses(build, model, em, events) == EmitClasses(build, model, c.em, events[1..])
  {
    var e := events[0];
    c := GenerateEventClass(build, em, e, ParentName(model, e));
    GenerateEventClassOutput(build, em, e, ParentName(model, e));
  }

  const RegistryOpen: string := "IMPLEMENTED_EVENTS = {"

  /** The writes between the last class and the registry entries. */
  const RegistryPrologue: seq<string> := ["", "", RegistryOpen]

  const EntryOpen: string := "ua.ObjectIds."

  /** `"ua.ObjectIds.{0}Type: {0},".format(name)`. */
  function RegistryEntry(name: string): string {
    EntryOpen + name + "Type: " + name + ","
  }

  /** A registry entry holds the name twice: once as the prefix of the
      object id, right after `ua.ObjectIds.`, and once as the class, right
      before the final comma. */
  lemma RegistryEntryReads(name: string)
    ensures var r := RegistryEntry(name);
      && |r| == 2 * |name| + 20
      && StartsWith(r, EntryOpen) && r[|EntryOpen|..|EntryOpen| + |name|] == name
      && EndsWith(r, name + ",")
  {
    var r := RegistryEntry(name);
    assert r == EntryOpen + (name + ("Type: " + (name + ",")));
    AppendHalves(EntryOpen, name + ("Type: " + (name + ",")));
    AppendHalves(name, "Type: " + (name + ","));
    AppendHalves(EntryOpen + name + "Type: ", name + ",");
  }

  /** Different events get different registry entries: the entry names its
      event unambiguously. */
  lemma RegistryEntryInjective(a: string, b: string)
    ensures RegistryEntry(a) == RegistryEntry(b) ==> a == b
  {
    RegistryEntryReads(a);
    RegistryEntryReads(b);
  }

  /** One registry entry per event, in model order. */
  function RegistryLines(events: seq<Event>): (ls: seq<string>)
    ensures |ls| == |events|
    ensures forall i :: 0 <= i < |events| ==> ls[i] == RegistryEntry(events[i].browseName)
  {
    seq(|events|, i requires 0 <= i < |events| => RegistryEntry(events[i].browseName))
  }

  /** The registry at entry depth `d`: two blank lines and the opening at
      `d`, then the entries and the closing brace one level in. */
  function RegistryText(d: int, events: seq<Event>): (ls: seq<Line>)
    ensures |ls| == |RegistryPrologue| + |events| + 1
  {
    AtDepth(d, RegistryPrologue) + AtDepth(d + 1, RegistryLines(events)) + [Line(d + 1, "}")]
  }

  /** The writes after the last class; `iidx` is raised once and never
      lowered, so the entries and the closing brace sit one level in. */
  function WriteRegistry(em: Emitter, events: seq<Event>): (r: Emitter)
    ensures r.iidx == em.iidx + 1
    ensures r.out == em.out + RegistryText(em.iidx, events)
  {
    var em1 := Shift(WriteAll(em, RegistryPrologue), 1);
    var em2 := WriteAll(em1, RegistryLines(events));
    var pro, entries := AtDepth(em.iidx, RegistryPrologue), AtDepth(em.iidx + 1, RegistryLines(events));
    assert em2.out == (em.out + pro) + entries;
    ConcatAssoc(em.out, pro, entries);
    ConcatAssoc(em.out, pro + entries, [Line(em.iidx + 1, "}")]);
    Write(em2, "}")
  }

  /** `generate_events_code(model)` on a fresh generator. */
  function GenerateEventsCode(ids: IdNames, model: EventModel): (r: Run)
    requires IsOrderedMap(model)
    ensures HeaderSize <= |r.em.out| && r.em.out[..HeaderSize] == AtDepth(0, HeaderLines(Values(model)))
    ensures r.Ok? ==> r.em.iidx == 1
  {
    var events := Values(model);
    var header := MakeHeader(Fresh, events);
    var c := EmitClasses(PropertyBuilder(ids), model, header, events);
    assert |header.out| == HeaderSize;
    assert c.em.out[..HeaderSize] == header.out == AtDepth(0, HeaderLines(events));
    if c.Crash? then c
    else
      var r := WriteRegistry(c.em, events);
      PrefixOfAppend(c.em.out, RegistryText(c.em.iidx, events), HeaderSize);
      Ok(r)
  }

  /** The whole file: it is produced exactly when every event can be emitted,
      and it is then the header, every class in model order, two blank lines,
      the registry opening, one entry per event at depth one and the closing
      brace at depth one. */
  lemma GenerateEventsCodeOutput(ids: IdNames, model: EventModel)
    requires IsOrderedMap(model)
    ensures var events := Values(model);
      var build := PropertyBuilder(ids);
      var r := GenerateEventsCode(ids, model);
      && (r.Ok? <==> AllEmittable(build, model, events))
      && (r.Ok? ==> r.em.out == AtDepth(0, HeaderLines(events))
                              + ClassesText(build, model, 0, events)
                              + RegistryText(0, events))
  {
    var events := Values(model);
    var build := PropertyBuilder(ids);
    var header := GenerateEventsCodeUnfold(ids, model);
    EmitClassesOutput(build, model, header, events);
  }

  /** The driver is the header, then the loop over the classes, then, if the
      loop finished, the registry. */
  lemma GenerateEventsCodeUnfold(ids: IdNames, model: EventModel) returns (header: Emitter)
    requires IsOrderedMap(model)
    ensures header == Emitter(0, AtDepth(0, HeaderLines(Values(model))))
    ensures var c := EmitClasses(PropertyBuilder(ids), model, header, Values(model));
      GenerateEventsCode(ids, model) == if c.Crash? then c else Ok(WriteRegistry(c.em, Values(model)))
  {
    header := MakeHeader(Fresh, Values(model));
  }

  /** From `start` on, `out` holds one registry entry per event, in order,
      one level in. */
  predicate ListsRegistry(out: seq<Line>, start: int, events: seq<Event>) {
    && 0 <= start && start + |events| <= |out|
    && forall k :: 0 <= k < |events| ==> out[start + k] == Line(1, RegistryEntry(events[k].browseName))
  }

  /** When every event can be emitted the run completes, and its registry
      has one entry per key of the model, each naming the event stored under
      that key (`Values` lists them in insertion order), one level in; the
      closing brace stays at that level. */
  lemma RegistryMatchesModel(ids: IdNames, model: EventModel)
    requires IsOrderedMap(model)
    requires AllEmittable(PropertyBuilder(ids), model, Values(model))
    ensures GenerateEventsCode(ids, model).Ok?
    ensures |GenerateEventsCode(ids, model).em.out|
         == RegistryStart(model) + |model.order| + 1
    ensures Last(GenerateEventsCode(ids, model).em.out) == Line(1, "}")
    ensures ListsRegistry(GenerateEventsCode(ids, model).em.out, RegistryStart(model), Values(model))
  {
    var events := Values(model);
    var build := PropertyBuilder(ids);
    GenerateEventsCodeOutput(ids, model);
    var out := GenerateEventsCode(ids, model).em.out;
    var front := AtDepth(0, HeaderLines(events)) + ClassesText(build, model, 0, events);
    assert out == front + RegistryText(0, events);
    assert |front| == HeaderSize + ClassesSize(events);
    RegistryAfter(out, front, events);
    assert RegistryStart(model) == |front| + |RegistryPrologue|;
  }

  /** Where the registry entries start in a completed file: after the
      header, the classes and the registry's prologue. */
  function RegistryStart(model: EventModel): nat
    requires IsOrderedMap(model)
  {
    HeaderSize + ClassesSize(Values(model)) + |RegistryPrologue|
  }

  /** After any text `front`, the registry adds its prologue, one entry per
      event one level in, and the closing brace last. */
  lemma RegistryAfter(out: seq<Line>, front: seq<Line>, events: seq<Event>)
    requires out == front + RegistryText(0, events)
    ensures |out| == |front| + |RegistryPrologue| + |events| + 1
    ensures out[|out| - 1] == Line(1, "}")
    ensures ListsRegistry(out, |front| + |RegistryPrologue|, events)
  {
    var reg := RegistryText(0, events);
    IndexPastPrefix(front, reg, |reg| - 1);
    RegistryTextEnds(0, events);
    forall k | 0 <= k < |events|
      ensures (front + reg)[|front| + |RegistryPrologue| + k] == Line(1, RegistryEntry(events[k].browseName))
    {
      IndexPastPrefix(front, reg, |RegistryPrologue| + k);
      RegistryTextEntry(0, events, k);
    }
  }

  lemma RegistryTextEntry(d: int, events: seq<Event>, k: nat)
    requires k < |events|
    ensures RegistryText(d, events)[|RegistryPrologue| + k] == Line(d + 1, RegistryEntry(events[k].browseName))
  {
    var pro := AtDepth(d, RegistryPrologue);
    var entries := AtDepth(d + 1, RegistryLines(events));
    assert RegistryText(d, events) == pro + (entries + [Line(d + 1, "}")]);
    IndexPastPrefix(pro, entries + [Line(d + 1, "}")], k);
  }

  lemma RegistryTextEnds(d: int, events: seq<Event>)
    ensures var reg := RegistryText(d, events); reg[|reg| - 1] == Line(d + 1, "}")
  {
  }

  /** The `k`-th class of the file is the `k`-th event of the model: its
      `class` line follows the header, the complete earlier classes and the
      class's own blank line. */
  lemma ClassesInModelOrder(build: LineBuilder, model: EventModel, d: int, events: seq<Event>, k: nat)
    requires AllEmittable(build, model, events)
    requires k < |events|
    ensures AllEmittable(build, model, events[..k])
    ensures var text := ClassesText(build, model, d, events);
      var at := ClassesSize(events[..k]);
      && at + 1 < |text|
      && text[at] == Line(d, "")
      && text[at + 1] == Line(d, ClassHead(events[k], ParentName(model, events[k])))
  {
    ClassesTextSplit(build, model, d, events, k);
    var rest := events[k..];
    ClassFirstLines(build, model, d, rest);
    assert rest[0] == events[k];
    var pre := ClassesText(build, model, d, events[..k]);
    IndexPastPrefix(pre, ClassesText(build, model, d, rest), 0);
    IndexPastPrefix(pre, ClassesText(build, model, d, rest), 1);
  }

  /** The class text of a non-empty sequence opens with the blank line and
      the `class` line of its first event. */
  lemma ClassFirstLines(build: LineBuilder, model: EventModel, d: int, events: seq<Event>)
    requires AllEmittable(build, model, events)
    requires events != []
    ensures var text := ClassesText(build, model, d, events);
      && 2 <= |text|
      && text[0] == Line(d, "")
      && text[1] == Line(d, ClassHead(events[0], ParentName(model, events[0])))
  {
    AllEmittableTail(build, model, events);
    var own := ClassLines(build, d, events[0], ParentName(model, events[0]));
    assert ClassesText(build, model, d, events) == own + ClassesText(build, model, d, events[1..]);
    assert own[0] == Line(d, "") && own[1] == Line(d, ClassHead(events[0], ParentName(model, events[0])));
  }

  lemma AllEmittableSlices(build: LineBuilder, model: EventModel, events: seq<Event>, k: nat)
    requires AllEmittable(build, model, events)
    requires k <= |events|
    ensures AllEmittable(build, model, events[..k]) && AllEmittable(build, model, events[k..])
  {
    assert forall i :: 0 <= i < k ==> events[..k][i] == events[i];
    assert forall i :: 0 <= i < |events| - k ==> events[k..][i] == events[k + i];
  }

  /** The class text of a sequence is the text of a prefix followed by the
      text of the rest. */
  lemma {:induction false} ClassesTextSplit(build: LineBuilder, model: EventModel, d: int, events: seq<Event>, k: nat)
    requires AllEmittable(build, model, events)
    requires k <= |events|
    ensures AllEmittable(build, model, events[..k]) && AllEmittable(build, model, events[k..])
    ensures ClassesText(build, model, d, events)
         == ClassesText(build, model, d, events[..k]) + ClassesText(build, model, d, events[k..])
    decreases k
  {
    AllEmittableSlices(build, model, events, k);
    if k == 0 {
      ClassesTextSplitZero(build, model, d, events);
    } else {
      AllEmittableTail(build, model, events);
      ClassesTextSplit(build, model, d, events[1..], k - 1);
      ClassesTextSplitStep(build, model, d, events, k);
    }
  }

  lemma ClassesTextSplitZero(build: LineBuilder, model: EventModel, d: int, events: seq<Event>)
    requires AllEmittable(build, model, events)
    ensures AllEmittable(build, model, events[..0]) && AllEmittable(build, model, events[0..])
    ensures ClassesText(build, model, d, events)
         == ClassesText(build, model, d, events[..0]) + ClassesText(build, model, d, events[0..])
  {
    assert events[..0] == [] && events[0..] == events;
  }

  lemma ClassesTextSplitStep(build: LineBuilder, model: EventModel, d: int, events: seq<Event>, k: nat)
    requires 0 < k <= |events|
    requires AllEmittable(build, model, events)
    requires AllEmittable(build, model, events[..k]) && AllEmittable(build, model, events[k..])
    requires AllEmittable(build, model, events[1..])
    requires AllEmittable(build, model, events[1..][..k - 1]) && AllEmittable(build, model, events[1..][k - 1..])
    requires ClassesText(build, model, d, events[1..])
          == ClassesText(build, model, d, events[1..][..k - 1]) + ClassesText(build, model, d, events[1..][k - 1..])
    ensures ClassesText(build, model, d, events)
         == ClassesText(build, model, d, events[..k]) + ClassesText(build, model, d, events[k..])
  {
    var front := events[..k];
    SliceAfterHead(events, k);
    var own := ClassLines(build, d, events[0], ParentName(model, events[0]));
    assert ClassesText(build, model, d, events) == own + ClassesText(build, model, d, events[1..]);
    assert ClassesText(build, model, d, front) == own + ClassesText(build, model, d, front[1..]);
    ConcatAssoc(own, ClassesText(build, model, d, front[1..]), ClassesText(build, model, d, events[k..]));
  }

  /** An event whose parent is not in the model stops the run after the
      header and every earlier class have been written, and before anything
      of its own: the output is never empty. */
  lemma MissingParentKeepsEarlierOutput(ids: IdNames, model: EventModel, k: nat)
    requires IsOrderedMap(model)
    requires k < |model.order|
    requires AllEmittable(PropertyBuilder(ids), model, Values(model)[..k])
    requires var e := Values(model)[k]; !IsRoot(e) && ParentOf(model, e).None?
    ensures var events := Values(model);
      GenerateEventsCode(ids, model)
        == Crash(Emitter(0, AtDepth(0, HeaderLines(events))
                            + ClassesText(PropertyBuilder(ids), model, 0, events[..k])),
                 UnresolvedParent(events[k].parentNodeId))
  {
    var events := Values(model);
    var build := PropertyBuilder(ids);
    var header := GenerateEventsCodeUnfold(ids, model);
    EmitClassesSplit(build, model, header, events, k);
    EmitClassesOutput(build, model, header, events[..k]);
    var pre := EmitClasses(build, model, header, events[..k]);
    assert events[k..][0] == events[k];
    assert EmitClasses(build, model, pre.em, events[k..])
        == Crash(pre.em, UnresolvedParent(events[k].parentNodeId));
  }

  /** Whatever happens later, the file starts with the rendered header. */
  lemma FileStartsWithHeader(ids: IdNames, model: EventModel)
    requires IsOrderedMap(model)
    ensures StartsWith(FileText(GenerateEventsCode(ids, model).em.out),
                       FileText(AtDepth(0, HeaderLines(Values(model)))))
  {
    var out := GenerateEventsCode(ids, model).em.out;
    TakeDrop(out, HeaderSize);
    FileTextAppend(out[..HeaderSize], out[HeaderSize..]);
    AppendHalves(FileText(out[..HeaderSize]), FileText(out[HeaderSize..]));
  }

  /** The class text of the root and of any other event, line by line:
      the blank line and the `class` line at the entry depth, the docstring
      and the signature one level in, then, two levels in, `Event.__init__`
      for the root and the `super` call and the `EventType` assignment for
      any other event, and only then the property lines. */
  lemma ClassShape(build: LineBuilder, d: int, e: Event, parentName: Option<string>)
    requires IsRoot(e) || parentName.Some?
    requires PropsOk(build, Props(e.references))
    ensures var ls := ClassLines(build, d, e, parentName);
      var body := if IsRoot(e) then 7 else 8;
      && ls[0] == Line(d, "")
      && ls[1] == Line(d, if IsRoot(e) then "class BaseEvent(Event):"
                          else "class " + e.browseName + "(" + parentName.value + "):")
      && ls[2..6] == [Line(d + 1, Quotes), Line(d + 1, DescriptionLine(e)), Line(d + 1, Quotes),
                      Line(d + 1, InitSignature)]
      && (IsRoot(e) ==> ls[6] == Line(d + 2, RootInit))
      && (!IsRoot(e) ==> ls[6] == Line(d + 2, SuperCall(e.browseName))
                         && ls[7] == Line(d + 2, EventTypeLine(e.browseName)))
      && ls[body..] == AtDepth(d + 2, PropertyLines(build, Props(e.references)))
  {
    var pro := ClassPrologue(d, e, parentName);
    var props := AtDepth(d + 2, PropertyLines(build, Props(e.references)));
    PrologueShape(d, e, parentName);
    AppendHalves(pro, props);
    SliceLeft(pro, props, 2, 6);
  }

  /** The prologue on its own: `class` line, docstring, signature and the
      constructor's first statements, root and non-root alike. */
  lemma PrologueShape(d: int, e: Event, parentName: Option<string>)
    requires IsRoot(e) || parentName.Some?
    ensures var pro := ClassPrologue(d, e, parentName);
      && |pro| == (if IsRoot(e) then 7 else 8)
      && pro[0] == Line(d, "")
      && pro[1] == Line(d, if IsRoot(e) then "class BaseEvent(Event):"
                           else "class " + e.browseName + "(" + parentName.value + "):")
      && pro[2..6] == [Line(d + 1, Quotes), Line(d + 1, DescriptionLine(e)), Line(d + 1, Quotes),
                       Line(d + 1, InitSignature)]
      && (IsRoot(e) ==> pro[6] == Line(d + 2, RootInit))
      && (!IsRoot(e) ==> pro[6] == Line(d + 2, SuperCall(e.browseName))
                         && pro[7] == Line(d + 2, EventTypeLine(e.browseName)))
  {
  }

  /** Every value of the model can be emitted exactly when the event under
      every key can: `model.values()` visits each key once. */
  lemma AllEmittableByKeys(build: LineBuilder, model: EventModel)
    requires IsOrderedMap(model)
    ensures AllEmittable(build, model, Values(model))
        <==> forall k :: k in model.nodes ==> Emittable(build, model, model.nodes[k])
  {
    var vs := Values(model);
    if AllEmittable(build, model, vs) {
      forall k | k in model.nodes
        ensures Emittable(build, model, model.nodes[k])
      {
        var i :| 0 <= i < |model.order| && model.order[i] == k;
        assert vs[i] == model.nodes[k];
      }
    }
  }

  /** No ordering is required of the model: two models with the same
      entries, listed in any two orders, both produce the file or both
      fail. In particular a child may come before its parent. */
  lemma OrderIrrelevant(ids: IdNames, m1: EventModel, m2: EventModel)
    requires IsOrderedMap(m1) && IsOrderedMap(m2)
    requires m1.nodes == m2.nodes
    ensures GenerateEventsCode(ids, m1).Ok? <==> GenerateEventsCode(ids, m2).Ok?
  {
    GenerateEventsCodeOutput(ids, m1);
    GenerateEventsCodeOutput(ids, m2);
    SameEntriesSameEmittable(PropertyBuilder(ids), m1, m2);
  }

  lemma SameEntriesSameEmittable(build: LineBuilder, m1: EventModel, m2: EventModel)
    requires IsOrderedMap(m1) && IsOrderedMap(m2)
    requires m1.nodes == m2.nodes
    ensures AllEmittable(build, m1, Values(m1)) <==> AllEmittable(build, m2, Values(m2))
  {
    AllEmittableByKeys(build, m1);
    AllEmittableByKeys(build, m2);
    forall k | k in m1.nodes
      ensures Emittable(build, m1, m1.nodes[k]) == Emittable(build, m2, m2.nodes[k])
    {
    }
  }

  /** An example: a model that lists a child before its root parent is
      emitted, whatever the symbol table. */
  lemma ChildBeforeParent(ids: IdNames)
    ensures var model := EventModel(["child", "root"],
                                    map["child" := Event("AuditEvent", None, Some("root"), []),
                                        "root" := Event("BaseEvent", None, None, [])]);
      IsOrderedMap(model) && GenerateEventsCode(ids, model).Ok?
  {
    var model := EventModel(["child", "root"],
                            map["child" := Event("AuditEvent", None, Some("root"), []),
                                "root" := Event("BaseEvent", None, None, [])]);
    assert IsOrderedMap(model);
    var events := Values(model);
    assert events == [model.nodes["child"], model.nodes["root"]];
    assert AllEmittable(PropertyBuilder(ids), model, events);
    GenerateEventsCodeOutput(ids, model);
  }

  /** A model whose only event names a parent it does not contain fails on
      that event, with the header already written. */
  lemma OrphanLeavesHeader(ids: IdNames)
    ensures var model := EventModel(["child"], map["child" := Event("AuditEvent", None, Some("gone"), [])]);
      && IsOrderedMap(model)
      && GenerateEventsCode(ids, model)
         == Crash(Emitter(0, AtDepth(0, HeaderLines(Values(model)))), UnresolvedParent(Some("gone")))
  {
    var model := EventModel(["child"], map["child" := Event("AuditEvent", None, Some("gone"), [])]);
    assert IsOrderedMap(model);
    var e := Values(model)[0];
    assert e == Event("AuditEvent", None, Some("gone"), []);
    assert !IsRoot(e) by {
      assert e.browseName[0] != RootName[0];
    }
    MissingParentKeepsEarlierOutput(ids, model, 0);
    assert Values(model)[..0] == [];
  }
}

=== FILE: outcomes.dfy ===
/** Option and Result, the failure-compatible wrappers the rest of the model
    uses for Python's `None` checks and for the exceptions the generator can
    raise. */
module Outcomes {

  datatype Option<+T> = None | Some(value: T)

  datatype Result<+R, +E> = Success(value: R) | Failure(error: E) {

    predicate IsFailure() {
      Failure?
    }

    function PropagateFailure<U>(): Result<U, E>
      requires Failure?
    {
      Failure(error)
    }

    function Extract(): R
      requires Success?
    {
      value
    }
  }
}

=== FILE: property_rules.dfy ===
/** The two first-match-wins rule chains that turn one `HasProperty`
    reference into the initializer expression (`get_property_value`) and the
    type tag (`get_property_data_type`) of an `add_property` call. */
module PropertyRules {
  import opened Outcomes
  import opened Sequences
  import opened Strings
  import opened Events

  const DateTimeTag: string := "ua.VariantType.DateTime"
  const VariantPrefix: string := "ua.VariantType."

  /** The four browse names that are bound to constructor parameters. */
  predicate IsParameterName(name: string) {
    name == "SourceNode" || name == "Severity" || name == "Status" || name == "Message"
  }

  /** `ua.NodeId(ua.ObjectIds.<symbol>)`. */
  function NodeIdExpr(symbol: string): string {
    "ua.NodeId(ua.ObjectIds." + symbol + ")"
  }

  /** `str(ObjectIdNames[int(text.split("=")[1])]).split("_")[0]`, failing the
      way Python does: no second `=`-field, a field `int` rejects, or a number
      the table does not know. */
  function Resolve(ids: IdNames, text: string): (r: Result<string, Failure>)
    ensures r.Success? ==> '_' !in r.value
    ensures r.Failure? ==> || r.error == NoIdField(text)
                           || r.error.NotAnInteger?
                           || (r.error.UnknownIdentifier? && r.error.id !in ids)
    ensures '=' !in text <==> r == Failure(NoIdField(text))
  {
    if '=' !in text then Failure(NoIdField(text))
    else
      var field := Split(text, '=')[1];
      match ParseNat(field)
      case None => Failure(NotAnInteger(field))
      case Some(n) =>
        if n !in ids then Failure(UnknownIdentifier(n))
        else Success(FirstSegment(ids[n], '_'))
  }

  /** For an identifier written `<head>=<number>`, the resolver looks the
      number up and keeps the part of its symbolic name before the first `_`:
      a prefix of the name without underscores, the whole name if it has none. */
  lemma ResolveNumeric(ids: IdNames, head: string, n: nat)
    requires '=' !in head
    ensures var r := Resolve(ids, head + "=" + NatToString(n));
      && (n in ids <==> r.Success?)
      && (n !in ids ==> r == Failure(UnknownIdentifier(n)))
      && (n in ids ==> '_' !in r.value && StartsWith(ids[n], r.value)
                       && ('_' !in ids[n] ==> r.value == ids[n])
                       && ('_' in ids[n] ==> ids[n][|r.value|] == '_'))
  {
    var digits := NatToString(n);
    SplitAfterHead(head, '=', digits);
    assert '=' !in digits by {
      forall i | 0 <= i < |digits| ensures digits[i] != '=' {
        assert IsDigit(digits[i]);
      }
    }
    assert Split(head + "=" + digits, '=') == [head] + Split(digits, '=');
    ParseNatToString(n);
  }

  /** Every identifier with an `=` reads as `<head>=<field>`, possibly
      followed by a further `=` and more text. The lookup fails with
      `NotAnInteger` exactly when `int` rejects the field; otherwise it
      succeeds exactly when the number is in the table, and fails with
      `UnknownIdentifier` for that number when it is not. */
  lemma ResolveField(ids: IdNames, head: string, field: string, rest: string)
    requires '=' !in head && '=' !in field
    requires rest == [] || rest[0] == '='
    ensures var r := Resolve(ids, head + "=" + field + rest);
      && (ParseNat(field).None? <==> r == Failure(NotAnInteger(field)))
      && (ParseNat(field).Some? ==>
            && (r.Success? <==> ParseNat(field).value in ids)
            && (ParseNat(field).value !in ids ==> r == Failure(UnknownIdentifier(ParseNat(field).value)))
            && (ParseNat(field).value in ids ==> r == Success(FirstSegment(ids[ParseNat(field).value], '_'))))
  {
    SecondField(head, '=', field, rest);
  }

  /** `get_property_value`. */
  function PropertyValue(ids: IdNames, ref: Reference): (r: Result<string, Failure>)
    ensures IsParameterName(ref.refBrowseName) ==> r.Success? && r.value != "None"
    ensures r == Success("None") <==> !IsParameterName(ref.refBrowseName) && ref.refDataType != "NodeId"
    ensures r.Failure? ==> !IsParameterName(ref.refBrowseName) && ref.refDataType == "NodeId"
                           && r == Resolve(ids, ref.refId)
  {
    var name := ref.refBrowseName;
    if name == "SourceNode" then Success("sourcenode")
    else if name == "Severity" then Success("severity")
    else if name == "Status" then Success("False")
    else if name == "Message" then Success("ua.LocalizedText(message)")
    else if ref.refDataType == "NodeId" then
      var symbol :- Resolve(ids, ref.refId);
      Success(NodeIdExpr(symbol))
    else Success("None")
  }

  /** The four parameter names win before the data type is looked at: their
      value is the same whatever the data type and identifier are. */
  lemma ParameterNamesIgnoreDataType(ids: IdNames, ref: Reference, dataType: string, id: string)
    requires IsParameterName(ref.refBrowseName)
    ensures PropertyValue(ids, ref) == PropertyValue(ids, ref.(refDataType := dataType, refId := id))
  {
  }

  /** `get_property_data_type`. */
  function PropertyDataType(ids: IdNames, ref: Reference): (r: Result<string, Failure>)
    ensures EndsWith(ref.refBrowseName, "Time") ==> r == Success(DateTimeTag)
    ensures r.Failure? ==> && !EndsWith(ref.refBrowseName, "Time")
                           && StartsWith(ref.refDataType, "i=")
                           && !r.error.NoIdField?
    ensures !EndsWith(ref.refBrowseName, "Time") && !StartsWith(ref.refDataType, "i=") ==>
              r.Success? && StartsWith(r.value, VariantPrefix)
              && r.value[|VariantPrefix|..] == ref.refDataType
  {
    if EndsWith(ref.refBrowseName, "Time") then Success(DateTimeTag)
    else if StartsWith(ref.refDataType, "i=") then
      assert ref.refDataType[1] == '=';
      var symbol :- Resolve(ids, ref.refDataType);
      Success(NodeIdExpr(symbol))
    else Success(VariantPrefix + ref.refDataType)
  }

  /** The argument line `add_properties` writes for one reference; the value
      is computed, and can fail, before the tag, and a failing tag raises its
      own exception. */
  function PropertyText(ids: IdNames, ref: Reference): (r: Result<string, Failure>)
    ensures r.Success? <==> PropertyValue(ids, ref).Success? && PropertyDataType(ids, ref).Success?
    ensures PropertyValue(ids, ref).Failure? ==> r == PropertyValue(ids, ref).PropagateFailure()
    ensures PropertyValue(ids, ref).Success? && PropertyDataType(ids, ref).Failure? ==>
              r == PropertyDataType(ids, ref).PropagateFailure()
    ensures r.Success? ==>
      var head := "self.add_property('" + ref.refBrowseName + "', ";
      var value := PropertyValue(ids, ref).value;
      var tail := ", " + PropertyDataType(ids, ref).value + ")";
      && |r.value| == |head| + |value| + |tail|
      && StartsWith(r.value, head)
      && StartsWith(r.value[|head|..], value)
      && EndsWith(r.value, tail)
  {
    var value :- PropertyValue(ids, ref);
    var tag :- PropertyDataType(ids, ref);
    var head := "self.add_property('" + ref.refBrowseName + "', ";
    var tail := ", " + tag + ")";
    var line := head + value + tail;
    ConcatAssoc(head, value, tail);
    AppendHalves(head, value + tail);
    AppendHalves(head + value, tail);
    AppendHalves(value, tail);
    Success(line)
  }

  // The rule chains restated as explicit ordered tables of guard/action pairs.

  type Guard = Reference -> bool
  type Action = (IdNames, Reference) -> Result<string, Failure>

  datatype Rule = Rule(applies: Guard, action: Action)

  /** The action of the first rule whose guard holds, if any. */
  function FirstMatch(rules: seq<Rule>, ids: IdNames, ref: Reference): Option<Result<string, Failure>>
  {
    if rules == [] then None
    else if rules[0].applies(ref) then Some(rules[0].action(ids, ref))
    else FirstMatch(rules[1..], ids, ref)
  }

  function ResolvedNodeId(ids: IdNames, text: string): Result<string, Failure> {
    match Resolve(ids, text)
    case Success(symbol) => Success(NodeIdExpr(symbol))
    case Failure(e) => Failure(e)
  }

  function ValueRules(): seq<Rule> {
    [ Rule((r: Reference) => r.refBrowseName == "SourceNode", (ids: IdNames, r: Reference) => Success("sourcenode")),
      Rule((r: Reference) => r.refBrowseName == "Severity", (ids: IdNames, r: Reference) => Success("severity")),
      Rule((r: Reference) => r.refBrowseName == "Status", (ids: IdNames, r: Reference) => Success("False")),
      Rule((r: Reference) => r.refBrowseName == "Message", (ids: IdNames, r: Reference) => Success("ua.LocalizedText(message)")),
      Rule((r: Reference) => r.refDataType == "NodeId", (ids: IdNames, r: Reference) => ResolvedNodeId(ids, r.refId)),
      Rule((r: Reference) => true, (ids: IdNames, r: Reference) => Success("None")) ]
  }

  function TagRules(): seq<Rule> {
    [ Rule((r: Reference) => EndsWith(r.refBrowseName, "Time"), (ids: IdNames, r: Reference) => Success(DateTimeTag)),
      Rule((r: Reference) => StartsWith(r.refDataType, "i="), (ids: IdNames, r: Reference) => ResolvedNodeId(ids, r.refDataType)),
      Rule((r: Reference) => true, (ids: IdNames, r: Reference) => Success(VariantPrefix + r.refDataType)) ]
  }

  /** `get_property_value` is the value table read first-match-wins. */
  lemma ValueChainIsFirstMatch(ids: IdNames, ref: Reference)
    ensures FirstMatch(ValueRules(), ids, ref) == Some(PropertyValue(ids, ref))
  {
    var rs := ValueRules();
    assert FirstMatch(rs[5..], ids, ref) == Some(Success("None"));
    assert FirstMatch(rs[4..], ids, ref)
        == if ref.refDataType == "NodeId" then Some(ResolvedNodeId(ids, ref.refId))
           else FirstMatch(rs[5..], ids, ref);
    assert FirstMatch(rs[3..], ids, ref)
        == if ref.refBrowseName == "Message" then Some(Success("ua.LocalizedText(message)"))
           else FirstMatch(rs[4..], ids, ref);
    assert FirstMatch(rs[2..], ids, ref)
        == if ref.refBrowseName == "Status" then Some(Success("False"))
           else FirstMatch(rs[3..], ids, ref);
    assert FirstMatch(rs[1..], ids, ref)
        == if ref.refBrowseName == "Severity" then Some(Success("severity"))
           else FirstMatch(rs[2..], ids, ref);
    assert rs == rs[0..];
  }

  /** `get_property_data_type` is the tag table read first-match-wins. */
  lemma TagChainIsFirstMatch(ids: IdNames, ref: Reference)
    ensures FirstMatch(TagRules(), ids, ref) == Some(PropertyDataType(ids, ref))
  {
    var rs := TagRules();
    assert FirstMatch(rs[2..], ids, ref) == Some(Success(VariantPrefix + ref.refDataType));
    assert FirstMatch(rs[1..], ids, ref)
        == if StartsWith(ref.refDataType, "i=") then Some(ResolvedNodeId(ids, ref.refDataType))
           else FirstMatch(rs[2..], ids, ref);
  }

  /** A `Message` property whose data type is a numeric node reference takes
      its value from the `Message` rule and its tag from the node-reference
      rule: the two chains are evaluated independently. */
  lemma MessageRuleBeatsNodeIdRule(ids: IdNames, ref: Reference, n: nat)
    requires ref.refBrowseName == "Message"
    requires ref.refDataType == "i=" + NatToString(n)
    requires n in ids
    ensures PropertyValue(ids, ref) == Success("ua.LocalizedText(message)")
    ensures PropertyDataType(ids, ref) == Success(NodeIdExpr(FirstSegment(ids[n], '_')))
  {
    assert !EndsWith(ref.refBrowseName, "Time") by {
      assert ref.refBrowseName[|ref.refBrowseName| - 4..] == "sage";
    }
    assert ref.refDataType[..2] == "i=";
    ResolveNumeric(ids, "i", n);
  }
}

=== FILE: sequences.dfy ===
/** Generic facts about sequences: concatenation, slicing and prefixes.
    The string, writer and generator proofs use them as small steps, so that
    no single proof has to unfold sequence equality over a large term. */
module Sequences {
  lemma ConcatAssoc<T>(a: seq<T>, b: seq<T>, c: seq<T>)
    ensures (a + b) + c == a + (b + c)
  {
  }

  /** The two halves of a concatenation are recovered by slicing. */
  lemma AppendHalves<T>(a: seq<T>, b: seq<T>)
    ensures (a + b)[..|a|] == a && (a + b)[|a|..] == b
  {
  }

  lemma TakeDrop<T>(s: seq<T>, n: nat)
    requires n <= |s|
    ensures s == s[..n] + s[n..]
  {
  }

  lemma DropLastOfAppend<T>(a: seq<T>, b: seq<T>)
    requires b != []
    ensures (a + b)[..|a + b| - 1] == a + b[..|b| - 1]
    ensures (a + b)[|a + b| - 1] == b[|b| - 1]
  {
  }

  /** Dropping the head of a prefix, or of the whole, commutes with cutting. */
  lemma SliceAfterHead<T>(s: seq<T>, k: nat)
    requires 0 < k <= |s|
    ensures s[..k][0] == s[0]
    ensures s[..k][1..] == s[1..][..k - 1]
    ensures s[1..][k - 1..] == s[k..]
  {
  }

  lemma SliceLeft<T>(a: seq<T>, b: seq<T>, x: nat, y: nat)
    requires x <= y <= |a|
    ensures (a + b)[x..y] == a[x..y]
  {
    assert forall i :: 0 <= i < y - x ==> (a + b)[x..y][i] == a[x..y][i];
  }

  lemma SliceRight<T>(a: seq<T>, b: seq<T>, x: nat, y: nat)
    requires x <= y <= |b|
    ensures (a + b)[|a| + x..|a| + y] == b[x..y]
  {
    assert forall i :: 0 <= i < y - x ==> (a + b)[|a| + x..|a| + y][i] == b[x..y][i];
  }

  /** A slice of the middle part of a three-part concatenation. */
  lemma SliceMiddle<T>(a: seq<T>, b: seq<T>, c: seq<T>, x: nat, y: nat)
    requires x <= y <= |b|
    ensures |a| + y <= |a + b + c|
    ensures (a + b + c)[|a| + x..|a| + y] == b[x..y]
  {
    ConcatAssoc(a, b, c);
    SliceLeft(b, c, x, y);
    SliceRight(a, b + c, x, y);
  }

  /** A piece found inside the middle of a three-part concatenation is found
      in the whole, shifted by the first part. */
  lemma FramedSlice<T>(a: seq<T>, b: seq<T>, c: seq<T>, o: nat, piece: seq<T>)
    requires o + |piece| <= |b| && b[o..o + |piece|] == piece
    ensures |a| + o + |piece| <= |a + b + c|
    ensures (a + b + c)[|a| + o..|a| + o + |piece|] == piece
  {
    SliceMiddle(a, b, c, o, o + |piece|);
  }

  /** A sequence is what lies before a position, the element there, and what
      lies after it. */
  lemma SplitAround<T>(s: seq<T>, i: nat)
    requires i < |s|
    ensures s == (s[..i] + [s[i]]) + s[i + 1..]
  {
  }

  function Last<T>(s: seq<T>): T
    requires s != []
  {
    s[|s| - 1]
  }

  /** A prefix of a prefix is a prefix. */
  lemma PrefixTrans<T>(a: seq<T>, b: seq<T>, c: seq<T>)
    requires |a| <= |b| <= |c| && b[..|a|] == a && c[..|b|] == b
    ensures c[..|a|] == a
  {
    assert c[..|a|] == c[..|b|][..|a|];
  }

  lemma PrefixCons<T>(head: T, s: seq<T>, k: nat)
    requires k <= |s|
    ensures ([head] + s)[..k + 1] == [head] + s[..k]
    ensures k < |s| ==> ([head] + s)[k + 1] == s[k]
  {
  }

  lemma PrefixOfAppend<T>(a: seq<T>, t: seq<T>, n: nat)
    requires n <= |a|
    ensures (a + t)[..n] == a[..n]
  {
  }

  lemma IndexPastPrefix<T>(a: seq<T>, b: seq<T>, i: nat)
    requires i < |b|
    ensures (a + b)[|a| + i] == b[i]
  {
  }
}

=== FILE: text.dfy ===
/** The handful of Python string operations the generator relies on:
    `str * n`, `startswith`, `endswith`, `sep.join`, `str.split(c)` and
    `int(...)` on a decimal digit string. */
module Strings {
  import opened Outcomes
  import opened Sequences

  /** `s * n` in Python: `n` copies of `s`, and the empty string when `n <= 0`. */
  function Repeat(s: string, n: int): (r: string)
    ensures |r| == if n <= 0 then 0 else n * |s|
    ensures forall i :: 0 <= i < |r| ==> r[i] in s
    decreases n
  {
    if n <= 0 then "" else s + Repeat(s, n - 1)
  }

  /** `s.startswith(prefix)`. */
  predicate StartsWith(s: string, prefix: string) {
    |prefix| <= |s| && s[..|prefix|] == prefix
  }

  /** `s.endswith(suffix)`. */
  predicate EndsWith(s: string, suffix: string) {
    |suffix| <= |s| && s[|s| - |suffix|..] == suffix
  }

  /** `startswith` holds exactly of the texts that are the prefix followed
      by something. */
  lemma StartsWithSplits(s: string, prefix: string, rest: string)
    ensures StartsWith(prefix + rest, prefix)
    ensures StartsWith(s, prefix) ==> s == prefix + s[|prefix|..]
  {
    AppendHalves(prefix, rest);
  }

  /** `endswith` holds exactly of the texts that are something followed by
      the suffix. */
  lemma EndsWithSplits(s: string, suffix: string, front: string)
    ensures EndsWith(front + suffix, suffix)
    ensures EndsWith(s, suffix) ==> s == s[..|s| - |suffix|] + suffix
  {
    AppendHalves(front, suffix);
  }

  /** `sep.join(parts)`. */
  function Join(parts: seq<string>, sep: string): string
  {
    if |parts| == 0 then ""
    else if |parts| == 1 then parts[0]
    else parts[0] + sep + Join(parts[1..], sep)
  }

  /** Where the `k`-th part starts inside `Join(parts, sep)`. */
  function JoinOffset(parts: seq<string>, sep: string, k: nat): nat
    requires k <= |parts|
  {
    if k == 0 then 0 else JoinOffset(parts, sep, k - 1) + |parts[k - 1]| + |sep|
  }

  /** Every part of a join sits, unchanged and in order, at its offset. */
  lemma {:induction false} JoinPlacesParts(parts: seq<string>, sep: string, k: nat)
    requires k < |parts|
    ensures JoinOffset(parts, sep, k) + |parts[k]| <= |Join(parts, sep)|
    ensures Join(parts, sep)[JoinOffset(parts, sep, k)..JoinOffset(parts, sep, k) + |parts[k]|] == parts[k]
    decreases k
  {
    if k == 0 {
      if |parts| > 1 {
        JoinUnfold(parts, sep);
        ConcatAssoc(parts[0], sep, Join(parts[1..], sep));
        AppendHalves(parts[0], sep + Join(parts[1..], sep));
      }
    } else {
      JoinPlacesParts(parts[1..], sep, k - 1);
      JoinPlacesLater(parts, sep, k);
    }
  }

  lemma JoinPlacesLater(parts: seq<string>, sep: string, k: nat)
    requires 0 < k < |parts|
    requires var tail, o := parts[1..], JoinOffset(parts[1..], sep, k - 1);
      o + |tail[k - 1]| <= |Join(tail, sep)| && Join(tail, sep)[o..o + |tail[k - 1]|] == tail[k - 1]
    ensures JoinOffset(parts, sep, k) + |parts[k]| <= |Join(parts, sep)|
    ensures Join(parts, sep)[JoinOffset(parts, sep, k)..JoinOffset(parts, sep, k) + |parts[k]|] == parts[k]
  {
    var tail := parts[1..];
    JoinOffsetShift(parts, sep, k);
    JoinUnfold(parts, sep);
    var o := JoinOffset(tail, sep, k - 1);
    assert tail[k - 1] == parts[k];
    SliceRight(parts[0] + sep, Join(tail, sep), o, o + |parts[k]|);
  }

  /** Between two consecutive parts of a join sits exactly the separator. */
  lemma {:induction false} JoinPlacesSeparators(parts: seq<string>, sep: string, k: nat)
    requires k + 1 < |parts|
    ensures JoinOffset(parts, sep, k + 1) <= |Join(parts, sep)|
    ensures Join(parts, sep)[JoinOffset(parts, sep, k) + |parts[k]|..JoinOffset(parts, sep, k + 1)] == sep
    decreases k
  {
    var tail := parts[1..];
    var rest := Join(tail, sep);
    JoinLength(tail, sep);
    JoinUnfold(parts, sep);
    if k == 0 {
      SliceLeft(parts[0] + sep, rest, |parts[0]|, |parts[0]| + |sep|);
    } else {
      JoinPlacesSeparators(tail, sep, k - 1);
      JoinOffsetShift(parts, sep, k);
      JoinOffsetShift(parts, sep, k + 1);
      assert tail[k - 1] == parts[k];
      var o := JoinOffset(tail, sep, k - 1) + |tail[k - 1]|;
      SliceRight(parts[0] + sep, rest, o, JoinOffset(tail, sep, k));
    }
  }

  /** A join of `n > 0` parts is as long as the parts and the `n - 1`
      separators between them; the join of no parts is empty. */
  lemma {:induction false} JoinLength(parts: seq<string>, sep: string)
    ensures parts == [] ==> Join(parts, sep) == ""
    ensures parts != [] ==> |Join(parts, sep)| + |sep| == JoinOffset(parts, sep, |parts|)
    decreases |parts|
  {
    if |parts| > 1 {
      JoinLength(parts[1..], sep);
      JoinOffsetShift(parts, sep, |parts|);
    }
  }

  lemma {:induction false} JoinOffsetShift(parts: seq<string>, sep: string, k: nat)
    requires 1 <= k <= |parts|
    ensures JoinOffset(parts, sep, k) == |parts[0]| + |sep| + JoinOffset(parts[1..], sep, k - 1)
    decreases k
  {
    if k > 1 {
      JoinOffsetShift(parts, sep, k - 1);
    }
  }

  /** A join framed by a prefix and a suffix keeps each part at its offset
      past the prefix. */
  lemma {:induction false} FramedJoinPart(prefix: string, parts: seq<string>, sep: string, suffix: string, k: nat)
    requires k < |parts|
    ensures |prefix| + JoinOffset(parts, sep, k) + |parts[k]| <= |prefix + Join(parts, sep) + suffix|
    ensures (prefix + Join(parts, sep) + suffix)[|prefix| + JoinOffset(parts, sep, k)..|prefix| + JoinOffset(parts, sep, k) + |parts[k]|]
         == parts[k]
    decreases k
  {
    if |parts| == 1 {
      FramedSlice(prefix, parts[0], suffix, 0, parts[0]);
    } else {
      var head, tail := parts[0] + sep, parts[1..];
      JoinUnfold(parts, sep);
      ConcatAssoc(prefix, head, Join(tail, sep));
      if k == 0 {
        FramedSlice(prefix, head + Join(tail, sep), suffix, 0, parts[0]);
      } else {
        FramedJoinPart(prefix + head, tail, sep, suffix, k - 1);
        JoinOffsetShift(parts, sep, k);
        assert tail[k - 1] == parts[k];
        assert prefix + Join(parts, sep) + suffix == (prefix + head) + Join(tail, sep) + suffix;
        assert |prefix| + JoinOffset(parts, sep, k) == |prefix + head| + JoinOffset(tail, sep, k - 1);
      }
    }
  }

  /** A join framed by a prefix and a suffix keeps each separator between
      its two parts. */
  lemma FramedJoinSeparator(prefix: string, parts: seq<string>, sep: string, suffix: string, k: nat)
    requires k + 1 < |parts|
    ensures var after := |prefix| + JoinOffset(parts, sep, k) + |parts[k]|;
      var next := |prefix| + JoinOffset(parts, sep, k + 1);
      var line := prefix + Join(parts, sep) + suffix;
      next <= |line| && line[after..next] == sep
  {
    JoinPlacesSeparators(parts, sep, k);
    var after := JoinOffset(parts, sep, k) + |parts[k]|;
    assert after + |sep| == JoinOffset(parts, sep, k + 1);
    FramedSlice(prefix, Join(parts, sep), suffix, after, sep);
  }

  /** Position of the first `c` in `s`. */
  function IndexOf(s: string, c: char): (i: nat)
    requires c in s
    ensures i < |s| && s[i] == c && c !in s[..i]
  {
    if s[0] == c then 0 else 1 + IndexOf(s[1..], c)
  }

  /** `s.split(c)`: the maximal `c`-free pieces between occurrences of `c`. */
  function Split(s: string, c: char): (parts: seq<string>)
    ensures |parts| >= 1
    ensures |parts| == 1 <==> c !in s
    ensures forall i :: 0 <= i < |parts| ==> c !in parts[i]
    decreases |s|
  {
    if c !in s then [s]
    else
      var i := IndexOf(s, c);
      [s[..i]] + Split(s[i + 1..], c)
  }

  /** Splitting and joining back with the same separator gives the input back. */
  lemma {:induction false} SplitJoin(s: string, c: char)
    ensures Join(Split(s, c), [c]) == s
    decreases |s|
  {
    if c in s {
      var i := IndexOf(s, c);
      var after := s[i + 1..];
      SplitJoin(after, c);
      SplitJoinStep(s, c, i, after);
    }
  }

  lemma SplitJoinStep(s: string, c: char, i: nat, after: string)
    requires c in s && i == IndexOf(s, c) && after == s[i + 1..]
    requires Join(Split(after, c), [c]) == after
    ensures Join(Split(s, c), [c]) == s
  {
    var rest := Split(after, c);
    SplitUnfold(s, c, i);
    JoinCons(s[..i], rest, [c]);
    SplitAround(s, i);
  }

  lemma SplitUnfold(s: string, c: char, i: nat)
    requires c in s && i == IndexOf(s, c)
    ensures Split(s, c) == [s[..i]] + Split(s[i + 1..], c)
  {
    SplitAround(s, i);
    SplitAfterHead(s[..i], c, s[i + 1..]);
  }

  /** Joining a first part in front of at least one more. */
  lemma JoinCons(head: string, rest: seq<string>, sep: string)
    requires rest != []
    ensures Join([head] + rest, sep) == head + sep + Join(rest, sep)
  {
    var all := [head] + rest;
    assert all[0] == head && all[1..] == rest;
  }

  /** A join of two or more parts is the first part, the separator and the
      join of the rest. */
  lemma JoinUnfold(parts: seq<string>, sep: string)
    requires |parts| > 1
    ensures Join(parts, sep) == (parts[0] + sep) + Join(parts[1..], sep)
  {
  }

  /** `s.split(c)[1]` is the text between the first and the second `c`, or
      everything after the first `c` when there is no second one. */
  lemma SecondField(head: string, c: char, field: string, rest: string)
    requires c !in head && c !in field
    requires rest == [] || rest[0] == c
    ensures |Split(head + [c] + field + rest, c)| >= 2
    ensures Split(head + [c] + field + rest, c)[1] == field
  {
    ConcatAssoc(head + [c], field, rest);
    SplitAfterHead(head, c, field + rest);
    FirstField(c, field, rest);
  }

  lemma FirstField(c: char, field: string, rest: string)
    requires c !in field
    requires rest == [] || rest[0] == c
    ensures Split(field + rest, c)[0] == field
  {
    if rest == [] {
      assert field + rest == field;
    } else {
      SplitAround(rest, 0);
      assert rest == [c] + rest[1..];
      ConcatAssoc(field, [c], rest[1..]);
      SplitAfterHead(field, c, rest[1..]);
    }
  }

  /** Splitting a text whose first separator follows a separator-free `head`. */
  lemma SplitAfterHead(head: string, c: char, rest: string)
    requires c !in head
    ensures Split(head + [c] + rest, c) == [head] + Split(rest, c)
  {
    var s := head + [c] + rest;
    assert s[|head|] == c;
    var i := IndexOf(s, c);
    assert i == |head|;
    assert s[..i] == head;
    assert s[i + 1..] == rest;
  }

  /** `s.split(c)[0]`: the text before the first `c`, or all of `s`. */
  function FirstSegment(s: string, c: char): (r: string)
    ensures c !in r
    ensures StartsWith(s, r)
    ensures c !in s ==> r == s
    ensures c in s ==> |r| < |s| && s[|r|] == c
  {
    var parts := Split(s, c);
    SplitJoin(s, c);
    if |parts| == 1 then parts[0]
    else
      assert parts == [parts[0]] + parts[1..];
      assert s == parts[0] + [c] + Join(parts[1..], [c]);
      parts[0]
  }

  predicate IsDigit(ch: char) {
    '0' <= ch <= '9'
  }

  predicate AllDigits(s: string) {
    forall i :: 0 <= i < |s| ==> IsDigit(s[i])
  }

  /** The value of a decimal digit string, most significant digit first. */
  function DigitsValue(s: string): nat
    requires AllDigits(s)
  {
    if s == [] then 0
    else DigitsValue(s[..|s| - 1]) * 10 + (s[|s| - 1] as int - '0' as int)
  }

  /** `int(s)` for the strings this model accepts: a non-empty run of ASCII
      digits. Anything else is Python's `ValueError`, here `None`. */
  function ParseNat(s: string): (r: Option<nat>)
    ensures r.Some? <==> s != [] && AllDigits(s)
  {
    if s != [] && AllDigits(s) then Some(DigitsValue(s)) else None
  }

  /** `str(n)` for a natural number. */
  function NatToString(n: nat): (s: string)
    ensures s != [] && AllDigits(s)
    decreases n
  {
    var d := ['0' + (n % 10) as char];
    if n < 10 then d else NatToString(n / 10) + d
  }

  /** Printing a number and parsing it back gives the number. */
  lemma {:induction false} ParseNatToString(n: nat)
    ensures ParseNat(NatToString(n)) == Some(n)
    decreases n
  {
    DigitsValueOfNatToString(n);
  }

  lemma {:induction false} DigitsValueOfNatToString(n: nat)
    ensures DigitsValue(NatToString(n)) == n
    decreases n
  {
    var s := NatToString(n);
    if n >= 10 {
      DigitsValueOfNatToString(n / 10);
      assert s[..|s| - 1] == NatToString(n / 10);
    }
  }
}

=== FILE: writer.dfy ===
/** The indentation-aware line writer: `EventsCodeGenerator.write` and the
    `iidx` counter it reads. The output file is the concatenation of the
    rendered lines, in the order they were written. */
module Writer {
  import opened Outcomes
  import opened Sequences
  import opened Strings

  /** `self.indent`. */
  const IndentUnit: string := "    "

  /** One call of `write`: the indent depth at the time, and the argument. */
  datatype Line = Line(depth: int, text: string)

  /** The generator's mutable state: `iidx` and everything written so far. */
  datatype Emitter = Emitter(iidx: int, out: seq<Line>)

  const Fresh: Emitter := Emitter(0, [])

  /** The characters one `write` call hands to the output file. */
  function Render(l: Line): (chunk: string)
    ensures chunk != [] && chunk[|chunk| - 1] == '\n'
    ensures l.text == "" ==> chunk == "\n"
    ensures l.text != "" ==> var n := if l.depth <= 0 then 0 else 4 * l.depth;
      && |chunk| == n + |l.text| + 1
      && (forall i :: 0 <= i < n ==> chunk[i] == ' ')
      && chunk[n..|chunk| - 1] == l.text
  {
    if l.text == "" then "\n" else Repeat(IndentUnit, l.depth) + l.text + "\n"
  }

  /** The contents of the output file after the given writes. */
  function FileText(lines: seq<Line>): string
  {
    if lines == [] then "" else FileText(lines[..|lines| - 1]) + Render(lines[|lines| - 1])
  }

  /** Reads one written chunk back at a known depth: the inverse of `Render`. */
  function Unrender(depth: int, chunk: string): Option<string>
  {
    var n := if depth <= 0 then 0 else 4 * depth;
    if chunk == "\n" then Some("")
    else if n + 2 <= |chunk| && chunk[|chunk| - 1] == '\n'
         && (forall i :: 0 <= i < n ==> chunk[i] == ' ')
    then Some(chunk[n..|chunk| - 1])
    else None
  }

  /** The file text of consecutive runs of writes is the concatenation of
      their texts. */
  lemma {:induction false} FileTextAppend(a: seq<Line>, b: seq<Line>)
    ensures FileText(a + b) == FileText(a) + FileText(b)
    decreases |b|
  {
    if b == [] {
      assert a + b == a;
      assert FileText(a) + FileText(b) == FileText(a) + "" == FileText(a);
    } else {
      FileTextAppend(a, b[..|b| - 1]);
      FileTextAppendStep(a, b);
    }
  }

  lemma FileTextAppendStep(a: seq<Line>, b: seq<Line>)
    requires b != []
    requires FileText(a + b[..|b| - 1]) == FileText(a) + FileText(b[..|b| - 1])
    ensures FileText(a + b) == FileText(a) + FileText(b)
  {
    var front, last := b[..|b| - 1], b[|b| - 1];
    var all := a + b;
    FileTextLast(all);
    DropLastOfAppend(a, b);
    FileTextLast(b);
    ConcatAssoc(FileText(a), FileText(front), Render(last));
  }

  lemma FileTextLast(lines: seq<Line>)
    requires lines != []
    ensures FileText(lines) == FileText(lines[..|lines| - 1]) + Render(lines[|lines| - 1])
  {
  }

  /** Every written line can be recovered from its chunk and its depth. */
  lemma RenderRoundTrip(l: Line)
    ensures Unrender(l.depth, Render(l)) == Some(l.text)
  {
  }

  /** `write(line)`: records the line at the current depth. */
  function Write(em: Emitter, line: string): (r: Emitter)
    ensures r.iidx == em.iidx
    ensures |r.out| == |em.out| + 1 && r.out[..|em.out|] == em.out
  {
    Emitter(em.iidx, em.out + [Line(em.iidx, line)])
  }

  /** `self.iidx += delta`: nothing is written, and the next write lands
      `delta` levels away. */
  function Shift(em: Emitter, delta: int): (r: Emitter)
    ensures r.out == em.out
    ensures forall line :: Write(r, line).out[|em.out|] == Line(em.iidx + delta, line)
  {
    Emitter(em.iidx + delta, em.out)
  }

  /** Raising `iidx` twice by one, with writes after each raise, and then
      lowering it by two leaves the depth where it was; the writes sit one
      and two levels deeper. */
  lemma RaiseTwiceThenLower(em: Emitter, first: seq<string>, second: seq<string>)
    ensures Shift(WriteAll(Shift(WriteAll(Shift(em, 1), first), 1), second), -2)
         == Emitter(em.iidx, em.out + AtDepth(em.iidx + 1, first) + AtDepth(em.iidx + 2, second))
  {
  }

  /** The file grows by exactly one chunk per `write`: a bare newline for the
      empty line at any depth, otherwise `iidx` indents, the line and a newline. */
  lemma WriteAppendsChunk(em: Emitter, line: string)
    ensures FileText(Write(em, line).out)
         == FileText(em.out) + (if line == "" then "\n" else Repeat(IndentUnit, em.iidx) + line + "\n")
  {
    var out := Write(em, line).out;
    assert out[..|out| - 1] == em.out;
  }

  /** The lines `lines`, all at depth `d`. */
  function AtDepth(d: int, lines: seq<string>): (r: seq<Line>)
    ensures |r| == |lines|
    ensures forall i :: 0 <= i < |lines| ==> r[i] == Line(d, lines[i])
  {
    seq(|lines|, i requires 0 <= i < |lines| => Line(d, lines[i]))
  }

  lemma AtDepthCons(d: int, line: string, lines: seq<string>)
    ensures AtDepth(d, [line] + lines) == [Line(d, line)] + AtDepth(d, lines)
  {
    var all := [line] + lines;
    assert forall i :: 1 <= i < |all| ==> all[i] == lines[i - 1];
  }

  /** Consecutive `write` calls without a change of `iidx`. */
  function WriteAll(em: Emitter, lines: seq<string>): (r: Emitter)
    ensures r.iidx == em.iidx
    ensures r.out == em.out + AtDepth(em.iidx, lines)
    decreases |lines|
  {
    if lines == [] then em
    else WriteAll(Write(em, lines[0]), lines[1..])
  }
}
